=== FILE: README.md ===
# Ethereum block ingestion and MEV tagging — a Dafny model

This project models the core of an Ethereum block indexer with MEV
(maximal extractable value) tagging. The indexer polls an execution node
for new blocks and stores each block, its transactions and its fee
recipient ("builder") in a relational store. Each transaction is tagged
with the heuristics that flag it as a possible MEV candidate:

- a priority fee above three times the block median;
- a sender with three or more transactions in the block;
- two or more swap selectors in the calldata;
- the same sender somewhere before it and somewhere after it in the
  block (a sandwich).

Blocks whose fee recipient belongs to a known African validator are
tagged as well.

The model covers six parts:

- **the detector crate** (`Detectors`, `Analyzer`): the four heuristics
  over typed transactions, their fixed evaluation order, and the analysis
  record with its 100-byte calldata summary;
- **the reason codes and row shapes** (`Models`): the four codes and their
  stored strings, the columns of the block, transaction, builder and
  validator tables, and the `u64`/`i64` casts of block numbers;
- **the block processor** (`InlineHeuristics`, `BlockProcessor`): field
  extraction from the RPC JSON with its error order, the priority-fee sum,
  the processor's own inlined copy of the heuristics, the JSON encoding of
  reasons, the per-transaction row, skip-on-failure accounting,
  insert-if-absent for builders, and the counters;
- **the validator tagger** (`ValidatorTagger`): a case-insensitive set of
  fee recipients, loaded and refreshed from the validator table;
- **the catch-up loop** (`CatchUp`): the starting cursor, and the walk over
  `cursor + 1..=height` on each poll, which advances only on success;
- **the differences** between the detector crate and the processor's
  inlined copy (`Variants`).

Supporting modules:

- `Wrappers`: `Option` and `Result`.
- `Text`: Rust's `from_str_radix`, `to_string`, `strip_prefix("0x")`,
  `hex::encode`, ASCII `to_lowercase` and `str::contains`, with their
  round trips.
- `Sorting`: an insertion sort together with the uniqueness of a sorted
  permutation. That uniqueness makes the median independent of the sort
  algorithm.

Other modelling choices:

- **Integers:**
  - Integer widths are explicit.
  - `fee as u64` keeps the low 64 bits.
  - The processor's unchecked `u64` sum and product wrap at 2^64
    (release-build semantics).
  - Block numbers are stored as `i64` and read back as `u64`.
- **Exact median:** the detector's `Decimal` median is kept exact by
  comparing `2 * fee` with three times twice the median.
- **The store:** modelled as values: the block rows, the transaction rows
  and a map of builders. The outcome of each write (which insert fails,
  which id the block insert returns) is an input, and so is what the node
  answers in the loop.

In the catch-up loop the cursor only moves forward, and each walk starts
above it. So a block that fails before a later success in the same walk
is never tried again, and no block number is ingested twice
(`CatchUp.NoBlockIngestedTwice`,
`CatchUp.FailedBlockBehindCursorIsAbandoned`).

## Model

| member | source | states |
|---|---|---|
| Models.ReasonCodesEnumerated | crates/db/src/models.rs:75-80 | every reason code is one of the four listed, in declaration order |
| Models.MevReasonCode.AsStr | crates/db/src/models.rs:83-90 | definition of `as_str`, a non-empty fixed tag per code; characterised by `Models.AsStrInjective` |
| Models.AsStrInjective | crates/db/src/models.rs:83-90 | distinct reason codes are stored under distinct strings |
| Models.U64AsI64 | crates/ingestion/src/block_processor.rs:145 | `block_number as i64` is the one `i64` congruent to the number modulo 2^64: the number itself below 2^63, the number minus 2^64 from there on |
| Models.I64AsU64 | crates/cli/src/main.rs:192 | `as u64` of an `i64` is the one `u64` congruent to it modulo 2^64: the value itself when non-negative, the value plus 2^64 when negative |
| Models.BlockNumberCastRoundTrip | crates/ingestion/src/block_processor.rs:145 | a block number stored as `i64` and read back as `u64` is the original number |
| Text.FromStrRadix | crates/ingestion/src/block_processor.rs:63-66 | definition of unsigned `from_str_radix`; characterised by `Text.FromStrRadixAccepts` and `Text.RadixRoundTrip` |
| Text.DigitsValueDefinedIffDigits | crates/ingestion/src/block_processor.rs:63-66 | a digit string has a value exactly when every character is a digit of the radix |
| Text.FromStrRadixAccepts | crates/ingestion/src/block_processor.rs:63-66 | accepted iff, after at most one `+`, a non-empty run of digits remains whose value is below the limit, and then that value is returned; so the empty string, a lone sign, a `-`, a non-digit and an overflow are all errors |
| Text.FromStrRadixI64 | crates/ingestion/src/block_processor.rs:82-85 | definition of signed `i64::from_str_radix`, whose results lie in [-2^63, 2^63); characterised by `Text.FromStrRadixI64Accepts` |
| Text.FromStrRadixI64Accepts | crates/ingestion/src/block_processor.rs:82-85 | accepted iff, after at most one `+` or `-`, a non-empty run of digits remains and its signed value lies in [-2^63, 2^63), and then that signed value is returned |
| Text.ParseHexI64 | crates/ingestion/src/block_processor.rs:107-110 | definition of the `0x`-quantity parse of the timestamp and gas used, with results in the `i64` range; characterised by `Text.FromStrRadixI64Accepts` and `Text.HexQuantityI64RoundTrip` |
| Text.HexQuantityI64RoundTrip | crates/ingestion/src/block_processor.rs:107-110 | a non-negative `i64` rendered as a `0x` hex quantity parses back to itself with the signed parser |
| Text.ParseHexU64 | crates/ingestion/src/block_processor.rs:59-66 | definition of the `0x`-quantity parse of the block number; characterised by `Text.HexQuantityRoundTrip` and `Text.FromStrRadixAccepts` |
| Text.StripHexPrefix | crates/ingestion/src/block_processor.rs:63 | removes a leading lower-case `0x` exactly when it is present, and nothing else |
| Text.HexQuantityRoundTrip | crates/ingestion/src/block_processor.rs:59-65 | a `u64` rendered as a `0x` hex quantity parses back to itself |
| Text.DecimalRoundTrip | crates/ingestion/src/block_processor.rs:242 | a `u64` written with `to_string` parses back to itself with `parse::<u64>` |
| Text.DecimalStringCanonical | crates/ingestion/src/block_processor.rs:100 | `to_string` of a number is canonical: decimal digits only, non-empty, and no leading zero unless the number is 0 |
| Text.CanonicalDecimalUnique | crates/ingestion/src/block_processor.rs:100 | a canonical decimal string is the `to_string` of its value, so a canonical column with the right value is exactly what the source writes |
| Text.RadixRoundTrip | crates/ingestion/src/block_processor.rs:100 | the digits of `n` in a radix up to 16 read back as `n` |
| Text.HexEncode | crates/mev-heuristics/src/detectors.rs:96 | the hex form has two characters per byte |
| Text.HexEncodeLowerCase | crates/mev-heuristics/src/detectors.rs:96 | every character of the hex form is a lower-case hex digit |
| Text.HexRoundTrip | crates/mev-heuristics/src/analyzer.rs:42 | decoding the hex form gives back the bytes |
| Text.HexEncodePrefix | crates/mev-heuristics/src/analyzer.rs:43-44 | the first 2k hex characters are the hex of the first k bytes |
| Text.Lower | crates/ingestion/src/validator_tagger.rs:43 | lower-casing keeps the length and maps each character by itself |
| Text.LowerIdempotent | crates/ingestion/src/validator_tagger.rs:26 | lower-casing an already lower-cased string changes nothing |
| Text.ContainsAfterPrefix | crates/ingestion/src/block_processor.rs:282 | a substring stays a substring after a prefix is prepended |
| Text.TwoMatches | crates/mev-heuristics/src/detectors.rs:107-113 | at least two patterns match iff two distinct patterns both occur |
| Sorting.Sort | crates/mev-heuristics/src/detectors.rs:63 | the result is ascending and a permutation of the input |
| Sorting.SortedUnique | crates/mev-heuristics/src/detectors.rs:63-68 | two ascending permutations of the same fees are equal, so the median does not depend on how they were sorted |
| Text.LowU64 | crates/mev-heuristics/src/detectors.rs:49 | `fee as u64` (and the processor's unchecked `u64` sum and product) is the one value below 2^64 congruent to the input modulo 2^64, the input itself when it fits |
| Detectors.IsHighPriorityFeeOutlier | crates/mev-heuristics/src/detectors.rs:47-72 | definition of the fee-outlier test; characterised by `Variants.DetectorFlagIsRule`, `Detectors.HighFeeUsesAnyAscendingOrder` and `Detectors.NoFeeNoOutlier` |
| Detectors.IsRepeatedSender | crates/mev-heuristics/src/detectors.rs:75-85 | definition of the repeated-sender test; characterised by `Detectors.SenderCountIsMultiplicity` |
| Detectors.IsAtomicMultiswap | crates/mev-heuristics/src/detectors.rs:92-117 | definition of the multiswap test; characterised by `Detectors.MultiswapIffTwoSelectors` |
| Detectors.IsSandwichPattern | crates/mev-heuristics/src/detectors.rs:127-140 | definition of the sandwich test; characterised by `Detectors.SandwichIffSurrounded` |
| Detectors.BlockFeesAppend | crates/mev-heuristics/src/detectors.rs:54-57 | the fees of two concatenated blocks are the concatenated fees |
| Detectors.BlockFeesNone | crates/mev-heuristics/src/detectors.rs:54-57 | a block in which no transaction has a fee gives no fees |
| Detectors.BlockFeesAllPresent | crates/mev-heuristics/src/detectors.rs:54-57 | when every transaction has a fee below 2^64, the fee list is the fees position by position |
| Detectors.FeelessTransactionsIgnored | crates/mev-heuristics/src/detectors.rs:54-57 | inserting a transaction without a fee anywhere in the block does not change the verdict |
| Detectors.HighFeeUsesAnyAscendingOrder | crates/mev-heuristics/src/detectors.rs:63-71 | the verdict is "fee > 3 × median" for every ascending arrangement of the block fees |
| Detectors.NoFeeNoOutlier | crates/mev-heuristics/src/detectors.rs:48-61 | no fee on the transaction, or none in the block, means no flag |
| Detectors.FeeThresholdBoundaries | crates/mev-heuristics/src/detectors.rs:71 | a fee of exactly three medians is not flagged; any positive fee is flagged over a zero median |
| Detectors.TenFeesOutlierExample | crates/mev-heuristics/src/detectors.rs:172-186 | ten fees of 1.0 to 1.9 gwei make a 10 gwei fee an outlier |
| Detectors.SenderCountIsMultiplicity | crates/mev-heuristics/src/detectors.rs:75-85 | the sender count is the multiplicity of the sender among the block's senders |
| Detectors.ThreeFromOneSenderExample | crates/mev-heuristics/src/detectors.rs:188-198 | three equal transactions from one sender give exactly `[RepeatedSender]` for the first |
| Detectors.MultiswapIffTwoSelectors | crates/mev-heuristics/src/detectors.rs:92-117 | multiswap iff the calldata is non-empty and two distinct selectors occur in its hex |
| Detectors.SandwichIffSurrounded | crates/mev-heuristics/src/detectors.rs:127-140 | sandwich iff the sender has a transaction at a position before the index and at one after it |
| Detectors.SandwichNeverAtEnds | crates/mev-heuristics/src/detectors.rs:127-140 | the first and last transactions are never the middle of a sandwich |
| Detectors.CodesFor | crates/mev-heuristics/src/detectors.rs:21-43 | each code is present iff its detector fired, in evaluation order, at most four |
| Detectors.DetectMevPatterns | crates/mev-heuristics/src/detectors.rs:16-44 | the codes are in evaluation order and each is present iff its heuristic holds |
| Detectors.DetectMevPatternsAsWritten | crates/mev-heuristics/src/detectors.rs:135 | the call panics exactly when the index is at or past the end of the block, and otherwise returns the detector codes |
| Detectors.OutlierTestPanics | crates/mev-heuristics/src/detectors.rs:184 | a call with the unit test's values (index 10, ten transactions) panics |
| Detectors.OutlierTestFlagsHighFee | crates/mev-heuristics/src/detectors.rs:182-185 | with the out-of-range index read as having no successor, the test's call returns `HighPriorityFee` |
| Analyzer.CalldataSummary | crates/mev-heuristics/src/analyzer.rs:41-50 | absent iff the calldata is empty; the full hex up to 200 characters, else the first 100 bytes' hex plus `...` |
| Analyzer.Analyze | crates/mev-heuristics/src/analyzer.rs:33-62 | the codes are the detectors' codes (for an index inside the block, exactly what the detector as written returns), the candidate flag is "some code", the summary is the calldata summary, and there is never a log summary |
| Analyzer.SummaryDecodesToCalldataPrefix | crates/mev-heuristics/src/analyzer.rs:14 | the summary decodes to the whole calldata, or (without its ellipsis) to the first 100 bytes |
| InlineHeuristics.IsFeeOutlier | crates/ingestion/src/block_processor.rs:241-266 | definition of the inlined fee-outlier test; characterised by `InlineHeuristics.FeeOutlierWithoutWrap` and `Variants.InlineFlagIsRule` |
| InlineHeuristics.IsSenderSequence | crates/ingestion/src/block_processor.rs:268-276 | definition of the inlined repeated-sender test; characterised by `InlineHeuristics.RawSenderCountIsMultiplicity` |
| InlineHeuristics.RawSenderCountIsMultiplicity | crates/ingestion/src/block_processor.rs:269-272 | the count of matching raw `from` values is their multiplicity among the block's raw senders, a missing value included |
| InlineHeuristics.IsInlineMultiswap | crates/ingestion/src/block_processor.rs:278-288 | definition of the inlined multiswap test; compared with the detector's by `Variants.DetectorMultiswapImpliesInline` and `Variants.UpperCaseInputHidesSelectors` |
| InlineHeuristics.IsInlineSandwich | crates/ingestion/src/block_processor.rs:290-301 | definition of the inlined sandwich test; characterised by `InlineHeuristics.InlineSandwichIffSurrounded` |
| InlineHeuristics.InlineSandwichIffSurrounded | crates/ingestion/src/block_processor.rs:290-301 | a sandwich iff the transaction has a sender and some earlier and some later transaction carry the same raw `from` |
| InlineHeuristics.EncodeReasons | crates/ingestion/src/block_processor.rs:303-308 | definition of the JSON array of reason tags; characterised by `InlineHeuristics.ReasonsRoundTrip` |
| InlineHeuristics.FeeValueIsParsedFee | crates/ingestion/src/block_processor.rs:229-242 | the stored decimal fee is a canonical decimal string that reads back as the parsed hex fee, or 0, hence exactly its `to_string` by `Text.CanonicalDecimalUnique` |
| InlineHeuristics.ReasonsFor | crates/ingestion/src/block_processor.rs:262-300 | each reason is present iff its test passed, in push order |
| InlineHeuristics.InlineReasons | crates/ingestion/src/block_processor.rs:238-301 | the reasons are in push order and each is present iff its inlined heuristic holds |
| InlineHeuristics.ReasonsRoundTrip | crates/ingestion/src/block_processor.rs:303-308 | the stored JSON array decodes back to the pushed reasons in order |
| InlineHeuristics.InputSummary | crates/ingestion/src/block_processor.rs:310-319 | absent iff the input is; the input itself up to 200 characters, else its first 200 characters plus `...` |
| InlineHeuristics.ProcessTransactionJson | crates/ingestion/src/block_processor.rs:211-344 | a missing hash or failed insert is an error; otherwise the row carries the hash, position, sender or "unknown", the fee's canonical decimal string (exactly its `to_string`, or `"0"`), and the candidate flag with reason codes that decode to the inlined reasons |
| InlineHeuristics.FeeOutlierWithoutWrap | crates/ingestion/src/block_processor.rs:242-266 | with fees below 2^62 the wrapping rule is exactly: positive fee, positive floored median, fee above three medians |
| InlineHeuristics.MissingSendersCountTogether | crates/ingestion/src/block_processor.rs:268-301 | three transactions without `from` count as one repeated sender, and none of them is a sandwich |
| ValidatorTagger.RecipientSet | crates/ingestion/src/validator_tagger.rs:19-27 | the set holds exactly the lower-cased fee recipients of the rows |
| ValidatorTagger.Load | crates/ingestion/src/validator_tagger.rs:18-33 | fails iff the query fails; otherwise it holds exactly the lower-cased recipients |
| ValidatorTagger.IsAfricaTagged | crates/ingestion/src/validator_tagger.rs:42-48 | definition of the tag query; characterised by `ValidatorTagger.TaggingIgnoresCase` and `ValidatorTagger.LoadedTaggerMembership` |
| ValidatorTagger.TaggingIgnoresCase | crates/ingestion/src/validator_tagger.rs:42-48 | tagging an address and its lower-cased form give the same answer |
| ValidatorTagger.LoadedTaggerMembership | crates/ingestion/src/validator_tagger.rs:42-48 | after loading, an address is tagged iff some validator row names it up to letter case |
| ValidatorTagger.Refresh | crates/ingestion/src/validator_tagger.rs:52-65 | a failed query leaves the set as it was and returns the error; a successful one makes it what a fresh load would give |
| ValidatorTagger.RefreshForgetsOldEntries | crates/ingestion/src/validator_tagger.rs:57-61 | an old entry that the new rows do not name is gone after a refresh |
| BlockProcessor.BaseFeeColumn | crates/ingestion/src/block_processor.rs:95-102 | the column is a canonical decimal string (so `"0"`, never `""` or `"007"`) that reads back, also with `parse::<u64>`, as the parsed base fee, or 0 when absent or unparsable |
| BlockProcessor.TotalPriorityFeesAppend | crates/ingestion/src/block_processor.rs:119-132 | the fee total of two concatenated transaction lists is the sum of their totals |
| BlockProcessor.SumPriorityFees | crates/ingestion/src/block_processor.rs:119-132 | the loop computes the sum of the fees that parse |
| BlockProcessor.ExtractBlock | crates/ingestion/src/block_processor.rs:57-115 | succeeds iff every mandatory field is present and parses (a missing number is the first error); the row carries each field, and the base fee and priority-fee total are canonical decimal strings of their values, hence exactly their `to_string` by `Text.CanonicalDecimalUnique` |
| BlockProcessor.TxOutcomes | crates/ingestion/src/block_processor.rs:160-171 | one outcome per transaction, in block order, each the processing of that position |
| BlockProcessor.OkRowsSound | crates/ingestion/src/block_processor.rs:160-171 | each written row is the successful outcome at its own position |
| BlockProcessor.OkRowsIncreasing | crates/ingestion/src/block_processor.rs:160-171 | written rows keep block order |
| BlockProcessor.OkRowsComplete | crates/ingestion/src/block_processor.rs:160-171 | every successful outcome has its row |
| BlockProcessor.TransactionRowsOfBlock | crates/ingestion/src/block_processor.rs:160-171 | rows are in block order, one per position iff that transaction has a hash and its insert succeeded |
| BlockProcessor.UpdateBuilder | crates/ingestion/src/block_processor.rs:346-366 | the recipient gains a row as an unknown builder if it had none; existing rows are untouched |
| BlockProcessor.UpdateBuilderIdempotent | crates/ingestion/src/block_processor.rs:346-366 | recording the same fee recipient twice leaves the table as recording it once |
| BlockProcessor.ProcessBlock | crates/ingestion/src/block_processor.rs:57-209 | extraction and block-insert errors change nothing; written rows stay written on later errors; on success the counters grow by one block, every transaction, the candidate rows and the Africa tag, and the builder is recorded |
| BlockProcessor.SkippedPositionHasNoRow | crates/ingestion/src/block_processor.rs:160-171 | a transaction without a hash has no row, so fewer rows than transactions are written |
| BlockProcessor.SkippedTransactionStillCounted | crates/ingestion/src/block_processor.rs:158-182 | a transaction without a hash leaves no row, so the candidate counter grows by exactly the candidates among the rows written and by fewer than the transactions, yet the block succeeds and counts every transaction as processed |
| CatchUp.Range | crates/cli/src/main.rs:155 | the numbers `lo..=hi` in order |
| CatchUp.Sweep | crates/cli/src/main.rs:155-171 | every number of the range is tried once; the ingested ones are exactly those processed, in order; the cursor is the last of them or unchanged |
| CatchUp.Poll | crates/cli/src/main.rs:150-182 | no height or no new block does nothing; otherwise it walks `cursor + 1..=height`; the cursor never moves back and only lands on processed blocks |
| CatchUp.Run | crates/cli/src/main.rs:150-182 | over many polls the cursor never moves back, only numbers above the start are tried, and ingested numbers strictly increase |
| CatchUp.NoBlockIngestedTwice | crates/cli/src/main.rs:155-163 | no block number is ingested twice over any sequence of polls |
| CatchUp.FailedBlockBehindCursorIsAbandoned | crates/cli/src/main.rs:158-162 | a block that fails before a later success of the same walk is never tried again |
| CatchUp.FailedWalkIsRepeated | crates/cli/src/main.rs:153-161 | a walk with no success leaves the cursor, so the next poll at the same height retries the same numbers |
| CatchUp.FailedBlockInTheMiddleExample | crates/cli/src/main.rs:155-170 | from cursor 100 to height 103 with 101 failing: 101 to 103 are tried, 102 and 103 ingested, and the cursor ends at 103 |
| CatchUp.MaxBlockNumber | crates/cli/src/main.rs:186-188 | absent iff no block is stored; otherwise a stored number no smaller than any other |
| CatchUp.LastProcessedBlock | crates/cli/src/main.rs:185-193 | 0 for an empty table, and always a `u64` |
| CatchUp.LastProcessedIsLargestNumber | crates/cli/src/main.rs:185-193 | when all numbers were stored from values below 2^63, the cursor is the largest of them |
| CatchUp.InitialCursor | crates/cli/src/main.rs:139-147 | the height when starting from the latest block, else exactly `LastProcessedBlock` of the stored rows (the stored maximum, by `CatchUp.LastProcessedIsLargestNumber`), 0 for an empty store; the one request's failure is the error |
| Variants.DetectorFlagIsRule | crates/mev-heuristics/src/detectors.rs:63-71 | the detector's flag is its exact-median rule on the sorted block fees |
| Variants.InlineFlagIsRule | crates/ingestion/src/block_processor.rs:254-264 | the processor's flag is its floored-median rule on the sorted parseable fees, while fees stay below 2^62 |
| Variants.DetectorRuleImpliesInlineRule | crates/ingestion/src/block_processor.rs:256-262 | with a positive floored median, a fee the detector flags is flagged by the processor too |
| Variants.RulesAgreeOnWholeMedian | crates/ingestion/src/block_processor.rs:256-262 | for a positive whole median the two rules agree |
| Variants.FlooredMedianFlagsMore | crates/ingestion/src/block_processor.rs:257 | fees 1, 1, 2, 4: the processor flags the fee 4, the detector does not |
| Variants.ZeroMedianFlaggedOnlyByDetector | crates/ingestion/src/block_processor.rs:262 | fees 0, 0, 5: the detector flags the fee 5, the processor does not |
| Variants.SelectorsIncluded | crates/ingestion/src/block_processor.rs:279 | every detector selector is one of the processor's five |
| Variants.DetectorMultiswapImpliesInline | crates/ingestion/src/block_processor.rs:278-287 | for lower-case `0x` hex input, a detector multiswap is a processor multiswap |
| Variants.UpperCaseInputHidesSelectors | crates/ingestion/src/block_processor.rs:282 | upper-case hex in the raw input hides a selector from the processor's search |
| Variants.SenderCaseMatters | crates/ingestion/src/block_processor.rs:271 | the processor compares raw sender strings, so one account in two letter cases counts as two senders |
| Variants.ReasonStringsDiffer | crates/ingestion/src/block_processor.rs:263-299 | the processor stores the fee and sender reasons under names different from the codes; the other two match |

## Findings

| source | as written | input that shows it | evidently intended | confidence | as-written member | corrected member |
|---|---|---|---|---|---|---|
| crates/mev-heuristics/src/detectors.rs:135 | `block_txs[tx_index + 1..]` panics when `tx_index` is at or past the end of the block | a call with the unit test's values at detectors.rs:184: index 10 on a ten-transaction block | an index outside the block has no transaction after it, so it is no sandwich, and the call returns the high-fee code the test asserts | medium (the test or the detector may be the one at fault), not executed | Detectors.DetectMevPatternsAsWritten, Detectors.OutlierTestPanics | Detectors.DetectMevPatterns, Detectors.OutlierTestFlagsHighFee, Analyzer.Analyze |

## Left out

- RPC transport and JSON parsing: the node's answers are inputs (`Observation`, `BlockJson`, `TxJson`), with each field either present as a string or absent.
- Storage I/O: the store is a value, and the outcome of each write is an input (`StoreBehaviour`). Transactions, unique constraints and the `INSERT OR IGNORE` race between the existence check and the insert are not modelled. The id returned by the block insert is an input.
- Metrics export, logging, the audit file write and the sleep between polls: side effects with no bearing on stored data. The audit record is modelled; its write outcome is only logged.
- Command-line parsing, the validator CSV import, the beacon client and the metrics server: outside the ingestion core.
- The calendar conversion of the timestamp: an input predicate (`validInstant`). The stored row keeps the seconds, not the RFC 3339 text.
- The `Decimal` sum of priority fees is unbounded here. The 96-bit `Decimal` overflow, reachable only past about 4·10^9 maximal `u64` fees, is not modelled.
- InlineHeuristics.IsFeeOutlier: wraps at 2^64 as a release build does. A debug build panics on that overflow instead, and that panic is not modelled.
- InlineHeuristics.InputSummary: counts characters, which equal bytes for the ASCII hex inputs nodes send. Cutting a non-ASCII string inside a character, which panics in the source, is not modelled.
- Text.Lower: lower-cases ASCII letters only. Non-ASCII case mapping of `to_lowercase` is not modelled, since addresses are ASCII hex.
- Detectors.IsRepeatedSender: compares addresses as bytes, not their checksummed string forms. The two are equivalent because the checksummed form is injective.
- CatchUp.LastProcessedBlock: its contract says nothing about stored numbers of 2^63 or more, which read back negative and are cast as written. `CatchUp.LastProcessedIsLargestNumber` covers the real range.
- Block numbers past 2^64 - 1: the loop's `last_block + 1` cannot overflow, because the walk only runs when the height exceeds the cursor.

=== FILE: analyzer.dfy ===
/** `TransactionAnalyzer::analyze`: the detector verdict plus a short hex
    summary of the calldata. Logs are not part of an RPC transaction, so
    the log summary is always absent. */
module Analyzer {
  import opened Wrappers
  import opened Text
  import opened Models
  import opened Detectors

  datatype TransactionAnalysis = TransactionAnalysis(
    isMevCandidate: bool,
    reasonCodes: seq<MevReasonCode>,
    calldataSummary: Option<string>,
    logSummary: Option<string>)

  /** Longest hex summary kept before the ellipsis (100 bytes). */
  const SummaryHexChars: nat := 200

  /** The hex form of the calldata, cut to its first 200 characters and
      marked with `...` when longer; absent for empty calldata. */
  function CalldataSummary(input: seq<byte>): (r: Option<string>)
    ensures r.None? <==> |input| == 0
    ensures r.Some? ==> |r.value| <= SummaryHexChars + 3
    ensures r.Some? && |input| * 2 <= SummaryHexChars ==> r.value == HexEncode(input)
    ensures r.Some? && |input| * 2 > SummaryHexChars ==>
              r.value == HexEncode(input[..SummaryHexChars / 2]) + "..." && |r.value| == SummaryHexChars + 3
  {
    if |input| == 0 then None
    else
      var hex := HexEncode(input);
      if |hex| > SummaryHexChars then
        HexEncodePrefix(input, SummaryHexChars / 2);
        Some(hex[..SummaryHexChars] + "...")
      else Some(hex)
  }

  /** Built on the detector verdict with the out-of-range index read as
      having no neighbours; inside the block it is exactly what the code as
      written returns. */
  function Analyze(tx: Transaction, block: seq<Transaction>, txIndex: nat): (a: TransactionAnalysis)
    ensures a.reasonCodes == DetectMevPatterns(tx, block, txIndex)
    ensures txIndex < |block| ==> DetectMevPatternsAsWritten(tx, block, txIndex) == Success(a.reasonCodes)
    ensures a.isMevCandidate <==> |a.reasonCodes| > 0
    ensures a.calldataSummary.None? <==> |tx.input| == 0
    ensures a.calldataSummary == CalldataSummary(tx.input)
    ensures a.logSummary.None?
  {
    var codes := DetectMevPatterns(tx, block, txIndex);
    TransactionAnalysis(|codes| > 0, codes, CalldataSummary(tx.input), None)
  }

  /** A summary that was not cut decodes back to the whole calldata; a cut
      one decodes, without its ellipsis, to the first 100 bytes. */
  lemma SummaryDecodesToCalldataPrefix(input: seq<byte>)
    requires |input| > 0
    ensures |input| * 2 <= SummaryHexChars ==> HexDecode(CalldataSummary(input).value) == Some(input)
    ensures |input| * 2 > SummaryHexChars ==>
              var s := CalldataSummary(input).value;
              HexDecode(s[..|s| - 3]) == Some(input[..SummaryHexChars / 2])
  {
    var s := CalldataSummary(input).value;
    if |input| * 2 <= SummaryHexChars {
      HexRoundTrip(input);
    } else {
      HexRoundTrip(input[..SummaryHexChars / 2]);
      assert s[..|s| - 3] == HexEncode(input[..SummaryHexChars / 2]);
    }
  }
}

=== FILE: block_processor.dfy ===
/** `BlockProcessor::process_block`: read the block fields from the RPC
    JSON, sum the priority fees, write the block row, process every
    transaction (a failing one is skipped), record the fee recipient as a
    builder if it is new, and bump the counters.

    The store is abstract: the block, transaction and builder tables as
    values, plus a `StoreBehaviour` input saying which writes fail and
    which id the block insert returns. Writes are not transactional: rows
    written before a later failure stay written. */
module BlockProcessor {
  import opened Wrappers
  import opened Text
  import opened Models
  import opened InlineHeuristics
  import opened ValidatorTagger

  /** A block object of the RPC JSON; each field is `None` when missing or
      of the wrong JSON type. */
  datatype BlockJson = BlockJson(
    number: Option<string>,
    hash: Option<string>,
    parentHash: Option<string>,
    timestamp: Option<string>,
    miner: Option<string>,
    baseFeePerGas: Option<string>,
    gasUsed: Option<string>,
    transactions: Option<seq<TxJson>>)

  datatype BlockError =
    | MissingNumber | InvalidNumber
    | MissingHash | MissingParentHash
    | MissingTimestamp | InvalidTimestamp | TimestampOutOfRange
    | MissingMiner
    | MissingGasUsed | InvalidGasUsed
    | MissingTransactions
    | BlockInsertFailed | BuilderUpdateFailed

  /** The errors raised while reading the JSON, before anything is written. */
  predicate IsExtractionError(e: BlockError) {
    !e.BlockInsertFailed? && !e.BuilderUpdateFailed?
  }

  // ---------------------------------------------------------------------
  // Fees

  /** The `base_fee` column: the parsed quantity in decimal, or `"0"` when
      absent or unparsable. */
  function BaseFeeColumn(baseFee: Option<string>): (r: string)
    ensures DigitsValue(r, 10) == Some(if baseFee.Some? then ParseHexU64(baseFee.value).GetOr(0) else 0)
    ensures ParseDecimalU64(r) == Some(if baseFee.Some? then ParseHexU64(baseFee.value).GetOr(0) else 0)
    ensures CanonicalDecimal(r)
  {
    match baseFee
    case Some(s) =>
      RadixRoundTrip(ParseHexU64(s).GetOr(0), 10);
      DecimalStringCanonical(ParseHexU64(s).GetOr(0));
      DecimalRoundTrip(ParseHexU64(s).GetOr(0));
      DecimalString(ParseHexU64(s).GetOr(0))
    case None =>
      RadixRoundTrip(0, 10);
      DecimalStringCanonical(0);
      DecimalRoundTrip(0);
      "0"
  }

  /** The sum of the fees that parse as `u64`; the others add nothing. */
  function TotalPriorityFees(txs: seq<TxJson>): nat {
    if |txs| == 0 then 0 else ParsedFee(txs[0]).GetOr(0) + TotalPriorityFees(txs[1..])
  }

  lemma {:induction false} TotalPriorityFeesAppend(a: seq<TxJson>, b: seq<TxJson>)
    ensures TotalPriorityFees(a + b) == TotalPriorityFees(a) + TotalPriorityFees(b)
    decreases |a|
  {
    if |a| == 0 {
      assert a + b == b;
    } else {
      assert (a + b)[1..] == a[1..] + b;
      TotalPriorityFeesAppend(a[1..], b);
    }
  }

  /** The accumulation loop of `process_block`, in block order. */
  method SumPriorityFees(txs: seq<TxJson>) returns (total: nat)
    ensures total == TotalPriorityFees(txs)
  {
    total := 0;
    var k := 0;
    while k < |txs|
      invariant 0 <= k <= |txs|
      invariant total == TotalPriorityFees(txs[..k])
    {
      TotalPriorityFeesAppend(txs[..k], [txs[k]]);
      assert txs[..k + 1] == txs[..k] + [txs[k]];
      match ParsedFee(txs[k]) {
        case Some(fee) => total := total + fee;
        case None =>
      }
      k := k + 1;
    }
    assert txs[..|txs|] == txs;
  }

  // ---------------------------------------------------------------------
  // Field extraction

  datatype ExtractedBlock = ExtractedBlock(number: nat, row: BlockRow, transactions: seq<TxJson>)

  /** Every mandatory field is present and parses: number (`u64`),
      timestamp (an `i64` that `validInstant` accepts), gas used (`i64`),
      hash, parent hash, miner and the transaction array. */
  predicate HasMandatoryFields(json: BlockJson, validInstant: int -> bool) {
    && json.number.Some? && ParseHexU64(json.number.value).Some?
    && json.hash.Some? && json.parentHash.Some?
    && json.timestamp.Some? && ParseHexI64(json.timestamp.value).Some?
    && validInstant(ParseHexI64(json.timestamp.value).value)
    && json.miner.Some?
    && json.gasUsed.Some? && ParseHexI64(json.gasUsed.value).Some?
    && json.transactions.Some?
  }

  /** Reads the block fields in the order of `process_block`, failing on
      the first mandatory field that is missing or does not parse.
      `validInstant` stands for the calendar conversion of the timestamp,
      which rejects seconds outside its range. */
  function ExtractBlock(json: BlockJson, tagger: Tagger, validInstant: int -> bool): (r: Result<ExtractedBlock, BlockError>)
    ensures r.Success? <==> HasMandatoryFields(json, validInstant)
    ensures r.Failure? ==> IsExtractionError(r.error)
    ensures json.number.None? ==> r == Failure(MissingNumber)
    ensures r.Success? ==>
              && r.value.transactions == json.transactions.value
              && Some(r.value.number) == ParseHexU64(json.number.value)
              && r.value.number < U64_LIMIT
              && r.value.row.blockNumber == U64AsI64(r.value.number)
              && r.value.row.blockHash == json.hash.value
              && r.value.row.parentHash == json.parentHash.value
              && Some(r.value.row.timestamp) == ParseHexI64(json.timestamp.value)
              && r.value.row.feeRecipient == json.miner.value
              && Some(r.value.row.gasUsed) == ParseHexI64(json.gasUsed.value)
              && DigitsValue(r.value.row.baseFee, 10) ==
                   Some(if json.baseFeePerGas.Some? then ParseHexU64(json.baseFeePerGas.value).GetOr(0) else 0)
              && CanonicalDecimal(r.value.row.baseFee)
              && DigitsValue(r.value.row.totalPriorityFees, 10) == Some(TotalPriorityFees(json.transactions.value))
              && CanonicalDecimal(r.value.row.totalPriorityFees)
              && (r.value.row.isAfricaTagged <==> IsAfricaTagged(tagger, json.miner.value))
  {
    if json.number.None? then Failure(MissingNumber)
    else if ParseHexU64(json.number.value).None? then Failure(InvalidNumber)
    else if json.hash.None? then Failure(MissingHash)
    else if json.parentHash.None? then Failure(MissingParentHash)
    else if json.timestamp.None? then Failure(MissingTimestamp)
    else if ParseHexI64(json.timestamp.value).None? then Failure(InvalidTimestamp)
    else if !validInstant(ParseHexI64(json.timestamp.value).value) then Failure(TimestampOutOfRange)
    else if json.miner.None? then Failure(MissingMiner)
    else if json.gasUsed.None? then Failure(MissingGasUsed)
    else if ParseHexI64(json.gasUsed.value).None? then Failure(InvalidGasUsed)
    else if json.transactions.None? then Failure(MissingTransactions)
    else
      var number := ParseHexU64(json.number.value).value;
      var txs := json.transactions.value;
      var miner := json.miner.value;
      var total := TotalPriorityFees(txs);
      RadixRoundTrip(total, 10);
      DecimalStringCanonical(total);
      var row := BlockRow(
        U64AsI64(number),
        json.hash.value,
        json.parentHash.value,
        ParseHexI64(json.timestamp.value).value,
        miner,
        BaseFeeColumn(json.baseFeePerGas),
        ParseHexI64(json.gasUsed.value).value,
        DecimalString(total),
        IsAfricaTagged(tagger, miner));
      Success(ExtractedBlock(number, row, txs))
  }

  // ---------------------------------------------------------------------
  // Transactions of a block

  /** The result of processing each transaction, in block order. */
  function TxOutcomes(blockId: int, txs: seq<TxJson>, failingInserts: set<nat>): (r: seq<Result<TransactionRow, TxError>>)
    ensures |r| == |txs|
    ensures forall i :: 0 <= i < |txs| ==> r[i] == ProcessTransactionJson(blockId, txs, i, i in failingInserts)
  {
    seq(|txs|, i requires 0 <= i < |txs| => ProcessTransactionJson(blockId, txs, i, i in failingInserts))
  }

  /** The rows of the transactions that were processed, in block order. */
  function OkRows(outcomes: seq<Result<TransactionRow, TxError>>): (r: seq<TransactionRow>)
    ensures |r| <= |outcomes|
  {
    if |outcomes| == 0 then []
    else (if outcomes[0].Success? then [outcomes[0].value] else []) + OkRows(outcomes[1..])
  }

  /** How many of the rows are MEV candidates. */
  function MevRowCount(rows: seq<TransactionRow>): (r: nat)
    ensures r <= |rows|
  {
    if |rows| == 0 then 0 else (if rows[0].isMevCandidate then 1 else 0) + MevRowCount(rows[1..])
  }

  /** Outcomes whose successful rows carry their own position, counted from
      `base`. */
  predicate PositionedFrom(outcomes: seq<Result<TransactionRow, TxError>>, base: int) {
    forall i :: 0 <= i < |outcomes| && outcomes[i].Success? ==> outcomes[i].value.positionIndex == base + i
  }

  lemma PositionedTail(outcomes: seq<Result<TransactionRow, TxError>>, base: int)
    requires |outcomes| > 0 && PositionedFrom(outcomes, base)
    ensures PositionedFrom(outcomes[1..], base + 1)
  {
    var tail := outcomes[1..];
    forall i | 0 <= i < |tail| && tail[i].Success?
      ensures tail[i].value.positionIndex == base + 1 + i
    {
      assert tail[i] == outcomes[i + 1];
    }
  }

  /** Each row is the successful outcome at its own position. */
  predicate RowsFromOutcomes(rows: seq<TransactionRow>, outcomes: seq<Result<TransactionRow, TxError>>, base: int) {
    forall k :: 0 <= k < |rows| ==>
      base <= rows[k].positionIndex < base + |outcomes| &&
      outcomes[rows[k].positionIndex - base] == Success(rows[k])
  }

  predicate IncreasingPositions(rows: seq<TransactionRow>) {
    forall k, l :: 0 <= k < l < |rows| ==> rows[k].positionIndex < rows[l].positionIndex
  }

  /** Each successful outcome has a row at its position. */
  predicate OutcomesHaveRows(rows: seq<TransactionRow>, outcomes: seq<Result<TransactionRow, TxError>>, base: int) {
    forall i :: 0 <= i < |outcomes| && outcomes[i].Success? ==> HasRowAt(rows, base + i)
  }

  lemma OkRowsUnfold(outcomes: seq<Result<TransactionRow, TxError>>)
    requires |outcomes| > 0
    ensures OkRows(outcomes) == (if outcomes[0].Success? then [outcomes[0].value] else []) + OkRows(outcomes[1..])
  {
  }

  /** Each written row is a successful outcome at its own position. */
  lemma {:induction false} OkRowsSound(outcomes: seq<Result<TransactionRow, TxError>>, base: int)
    requires PositionedFrom(outcomes, base)
    ensures RowsFromOutcomes(OkRows(outcomes), outcomes, base)
  {
    if |outcomes| > 0 {
      var tail := outcomes[1..];
      PositionedTail(outcomes, base);
      OkRowsSound(tail, base + 1);
      var rest := OkRows(tail);
      var rows := OkRows(outcomes);
      var head := if outcomes[0].Success? then [outcomes[0].value] else [];
      OkRowsUnfold(outcomes);
      forall k | 0 <= k < |rows|
        ensures base <= rows[k].positionIndex < base + |outcomes|
        ensures outcomes[rows[k].positionIndex - base] == Success(rows[k])
      {
        if k >= |head| {
          var j := k - |head|;
          assert rows[k] == rest[j];
          assert tail[rest[j].positionIndex - (base + 1)] == Success(rest[j]);
        } else {
          assert rows[k] == outcomes[0].value;
        }
      }
    }
  }

  /** The written rows keep block order. */
  lemma {:induction false} OkRowsIncreasing(outcomes: seq<Result<TransactionRow, TxError>>, base: int)
    requires PositionedFrom(outcomes, base)
    ensures IncreasingPositions(OkRows(outcomes))
  {
    if |outcomes| > 0 {
      var tail := outcomes[1..];
      PositionedTail(outcomes, base);
      OkRowsIncreasing(tail, base + 1);
      OkRowsSound(tail, base + 1);
      var rest := OkRows(tail);
      OkRowsUnfold(outcomes);
      if outcomes[0].Success? {
        assert outcomes[0].value.positionIndex == base;
        IncreasingAfterHead(outcomes[0].value, rest);
      } else {
        assert OkRows(outcomes) == [] + rest == rest;
      }
    }
  }

  lemma IncreasingAfterHead(row: TransactionRow, rest: seq<TransactionRow>)
    requires IncreasingPositions(rest)
    requires forall k :: 0 <= k < |rest| ==> row.positionIndex < rest[k].positionIndex
    ensures IncreasingPositions([row] + rest)
  {
    var rows := [row] + rest;
    forall k, l | 0 <= k < l < |rows|
      ensures rows[k].positionIndex < rows[l].positionIndex
    {
      assert rows[l] == rest[l - 1];
      if k > 0 {
        assert rows[k] == rest[k - 1];
      }
    }
  }

  /** Every successful outcome has its row. */
  lemma {:induction false} OkRowsComplete(outcomes: seq<Result<TransactionRow, TxError>>, base: int)
    requires PositionedFrom(outcomes, base)
    ensures OutcomesHaveRows(OkRows(outcomes), outcomes, base)
  {
    if |outcomes| > 0 {
      var tail := outcomes[1..];
      PositionedTail(outcomes, base);
      OkRowsComplete(tail, base + 1);
      var rest := OkRows(tail);
      var rows := OkRows(outcomes);
      var head := if outcomes[0].Success? then [outcomes[0].value] else [];
      OkRowsUnfold(outcomes);
      assert rows == head + rest;
      forall i | 0 <= i < |outcomes| && outcomes[i].Success?
        ensures HasRowAt(rows, base + i)
      {
        if i == 0 {
          assert rows[0].positionIndex == base;
        } else {
          assert tail[i - 1] == outcomes[i];
          var k :| 0 <= k < |rest| && rest[k].positionIndex == base + 1 + (i - 1);
          assert rows[|head| + k] == rest[k];
        }
      }
    }
  }

  /** Each outcome succeeds exactly when its transaction has a hash and
      its insert does not fail, and then carries that hash, the block id
      and its own position. */
  lemma TxOutcomesPositioned(blockId: int, txs: seq<TxJson>, failingInserts: set<nat>)
    ensures var outcomes := TxOutcomes(blockId, txs, failingInserts);
            && PositionedFrom(outcomes, 0)
            && forall i :: 0 <= i < |txs| ==>
                 && (outcomes[i].Success? <==> txs[i].hash.Some? && i !in failingInserts)
                 && (outcomes[i].Success? ==>
                       outcomes[i].value.txHash == txs[i].hash.value && outcomes[i].value.blockId == blockId)
  {
  }

  /** Some row sits at position `i`. */
  predicate HasRowAt(rows: seq<TransactionRow>, i: int) {
    exists k :: 0 <= k < |rows| && rows[k].positionIndex == i
  }

  /** Each row names a transaction of the block that has a hash and whose
      insert succeeded. */
  predicate RowsNameTransactions(rows: seq<TransactionRow>, blockId: int, txs: seq<TxJson>, failingInserts: set<nat>) {
    forall k :: 0 <= k < |rows| ==>
      0 <= rows[k].positionIndex < |txs| &&
      txs[rows[k].positionIndex].hash == Some(rows[k].txHash) &&
      rows[k].positionIndex !in failingInserts &&
      rows[k].blockId == blockId
  }

  /** A position has a row iff its transaction has a hash and its insert
      succeeded. */
  predicate RowsCoverTransactions(rows: seq<TransactionRow>, txs: seq<TxJson>, failingInserts: set<nat>) {
    forall i :: 0 <= i < |txs| ==> (HasRowAt(rows, i) <==> txs[i].hash.Some? && i !in failingInserts)
  }

  /** The rows written for a block: one per transaction that has a hash and
      whose insert succeeded, in block order; a transaction without a hash
      leaves no row. */
  lemma TransactionRowsOfBlock(blockId: int, txs: seq<TxJson>, failingInserts: set<nat>)
    ensures var rows := OkRows(TxOutcomes(blockId, txs, failingInserts));
            && RowsNameTransactions(rows, blockId, txs, failingInserts)
            && IncreasingPositions(rows)
            && RowsCoverTransactions(rows, txs, failingInserts)
  {
    var outcomes := TxOutcomes(blockId, txs, failingInserts);
    TxOutcomesPositioned(blockId, txs, failingInserts);
    RowsNameTheirTransactions(blockId, txs, failingInserts);
    OkRowsIncreasing(outcomes, 0);
    RowsCoverTheirTransactions(blockId, txs, failingInserts);
  }

  lemma RowsNameTheirTransactions(blockId: int, txs: seq<TxJson>, failingInserts: set<nat>)
    ensures RowsNameTransactions(OkRows(TxOutcomes(blockId, txs, failingInserts)), blockId, txs, failingInserts)
  {
    var outcomes := TxOutcomes(blockId, txs, failingInserts);
    var rows := OkRows(outcomes);
    TxOutcomesPositioned(blockId, txs, failingInserts);
    OkRowsSound(outcomes, 0);
    forall k | 0 <= k < |rows|
      ensures 0 <= rows[k].positionIndex < |txs|
      ensures txs[rows[k].positionIndex].hash == Some(rows[k].txHash)
      ensures rows[k].positionIndex !in failingInserts && rows[k].blockId == blockId
    {
      assert outcomes[rows[k].positionIndex] == Success(rows[k]);
    }
  }

  lemma RowsCoverTheirTransactions(blockId: int, txs: seq<TxJson>, failingInserts: set<nat>)
    ensures RowsCoverTransactions(OkRows(TxOutcomes(blockId, txs, failingInserts)), txs, failingInserts)
  {
    var outcomes := TxOutcomes(blockId, txs, failingInserts);
    var rows := OkRows(outcomes);
    TxOutcomesPositioned(blockId, txs, failingInserts);
    OkRowsSound(outcomes, 0);
    OkRowsComplete(outcomes, 0);
    forall i | 0 <= i < |txs|
      ensures HasRowAt(rows, i) <==> txs[i].hash.Some? && i !in failingInserts
    {
      if HasRowAt(rows, i) {
        var k :| 0 <= k < |rows| && rows[k].positionIndex == i;
        assert outcomes[i] == Success(rows[k]);
      }
    }
  }

  // ---------------------------------------------------------------------
  // Builders

  /** `update_builder`: a fee recipient with no row gets one as an unknown
      builder; an existing row, known or not, is left exactly as it is. */
  function UpdateBuilder(builders: map<string, BuilderRow>, feeRecipient: string): (r: map<string, BuilderRow>)
    ensures r.Keys == builders.Keys + {feeRecipient}
    ensures forall k :: k in builders ==> r[k] == builders[k]
    ensures feeRecipient !in builders ==> r[feeRecipient] == BuilderRow(feeRecipient, None, false)
  {
    if feeRecipient in builders then builders
    else builders[feeRecipient := BuilderRow(feeRecipient, None, false)]
  }

  /** A second block from the same fee recipient leaves the builder table
      as the first block left it. */
  lemma UpdateBuilderIdempotent(builders: map<string, BuilderRow>, feeRecipient: string)
    ensures UpdateBuilder(UpdateBuilder(builders, feeRecipient), feeRecipient) == UpdateBuilder(builders, feeRecipient)
  {
  }

  // ---------------------------------------------------------------------
  // The whole block

  datatype StoredBlock = StoredBlock(id: int, row: BlockRow)

  datatype Store = Store(
    blocks: seq<StoredBlock>,
    transactions: seq<TransactionRow>,
    builders: map<string, BuilderRow>)

  /** How the store answers this call: the id returned by the block insert
      (`None` when it fails), the positions whose transaction insert fails,
      and whether the builder lookup or insert fails. */
  datatype StoreBehaviour = StoreBehaviour(
    blockInsert: Option<int>,
    failingTxInserts: set<nat>,
    builderUpdateFails: bool)

  datatype Metrics = Metrics(
    blocksProcessed: nat,
    transactionsProcessed: nat,
    mevCandidates: nat,
    africaTaggedBlocks: nat)

  /** The record offered to the audit sink; a write failure there is only
      logged, so it is not modelled. */
  datatype AuditBlock = AuditBlock(
    blockNumber: nat,
    blockHash: string,
    feeRecipient: string,
    isAfricaTagged: bool,
    transactionCount: nat,
    mevCandidateCount: nat)

  datatype ProcessResult = ProcessResult(
    store: Store,
    metrics: Metrics,
    audit: Option<AuditBlock>,
    status: Result<(), BlockError>)

  function ProcessBlock(
    store: Store, metrics: Metrics, tagger: Tagger, json: BlockJson,
    validInstant: int -> bool, io: StoreBehaviour, auditPath: Option<string>)
    : (r: ProcessResult)
    // Reading errors come before any write.
    ensures !HasMandatoryFields(json, validInstant) ==>
              && r.store == store && r.metrics == metrics && r.audit.None?
              && r.status.Failure? && IsExtractionError(r.status.error)
    ensures io.blockInsert.None? ==> r.store == store && r.metrics == metrics && r.status.Failure?
    // Rows already written stay written.
    ensures |store.blocks| <= |r.store.blocks| && r.store.blocks[..|store.blocks|] == store.blocks
    ensures |store.transactions| <= |r.store.transactions|
            && r.store.transactions[..|store.transactions|] == store.transactions
    ensures r.status.Failure? ==> r.metrics == metrics && r.audit.None? && r.store.builders == store.builders
    ensures r.status.Success? <==>
              HasMandatoryFields(json, validInstant) && io.blockInsert.Some? && !io.builderUpdateFails
    ensures HasMandatoryFields(json, validInstant) && io.blockInsert.Some? ==>
              var e := ExtractBlock(json, tagger, validInstant).value;
              var newRows := r.store.transactions[|store.transactions|..];
              && r.store.blocks == store.blocks + [StoredBlock(io.blockInsert.value, e.row)]
              && newRows == OkRows(TxOutcomes(io.blockInsert.value, e.transactions, io.failingTxInserts))
              && (r.status.Success? ==>
                    && r.store.builders == UpdateBuilder(store.builders, json.miner.value)
                    && r.metrics.blocksProcessed == metrics.blocksProcessed + 1
                    && r.metrics.transactionsProcessed == metrics.transactionsProcessed + |e.transactions|
                    && r.metrics.mevCandidates == metrics.mevCandidates + MevRowCount(newRows)
                    && r.metrics.africaTaggedBlocks ==
                         metrics.africaTaggedBlocks + (if IsAfricaTagged(tagger, json.miner.value) then 1 else 0)
                    && (r.audit.Some? <==> auditPath.Some?))
  {
    match ExtractBlock(json, tagger, validInstant)
    case Failure(e) => ProcessResult(store, metrics, None, Failure(e))
    case Success(block) =>
      match io.blockInsert
      case None => ProcessResult(store, metrics, None, Failure(BlockInsertFailed))
      case Some(blockId) =>
        var rows := OkRows(TxOutcomes(blockId, block.transactions, io.failingTxInserts));
        var mev := MevRowCount(rows);
        var written := Store(
          store.blocks + [StoredBlock(blockId, block.row)],
          store.transactions + rows,
          store.builders);
        assert written.transactions[|store.transactions|..] == rows;
        assert written.transactions[..|store.transactions|] == store.transactions;
        assert written.blocks[..|store.blocks|] == store.blocks;
        if io.builderUpdateFails then
          ProcessResult(written, metrics, None, Failure(BuilderUpdateFailed))
        else
          var tagged := block.row.isAfricaTagged;
          var counted := Metrics(
            metrics.blocksProcessed + 1,
            metrics.transactionsProcessed + |block.transactions|,
            metrics.mevCandidates + mev,
            metrics.africaTaggedBlocks + (if tagged then 1 else 0));
          var audit := AuditBlock(block.number, block.row.blockHash, block.row.feeRecipient, tagged,
                                  |block.transactions|, mev);
          ProcessResult(
            written.(builders := UpdateBuilder(store.builders, block.row.feeRecipient)),
            counted,
            if auditPath.Some? then Some(audit) else None,
            Success(()))
  }

  /** A transaction that fails (here: one without a hash) is skipped: it
      leaves no row and is not counted as an MEV candidate, while the block
      still succeeds and counts all of its transactions as processed. */
  lemma SkippedTransactionStillCounted(
    store: Store, metrics: Metrics, tagger: Tagger, json: BlockJson,
    validInstant: int -> bool, io: StoreBehaviour, auditPath: Option<string>, i: nat)
    requires HasMandatoryFields(json, validInstant) && io.blockInsert.Some? && !io.builderUpdateFails
    requires i < |json.transactions.value| && json.transactions.value[i].hash.None?
    ensures var r := ProcessBlock(store, metrics, tagger, json, validInstant, io, auditPath);
            && r.status.Success?
            && r.metrics.transactionsProcessed == metrics.transactionsProcessed + |json.transactions.value|
            && r.metrics.mevCandidates ==
                 metrics.mevCandidates + MevRowCount(OkRows(TxOutcomes(io.blockInsert.value, json.transactions.value, io.failingTxInserts)))
            && r.metrics.mevCandidates < metrics.mevCandidates + |json.transactions.value|
            && forall k :: |store.transactions| <= k < |r.store.transactions| ==>
                 r.store.transactions[k].positionIndex != i
  {
    var txs := json.transactions.value;
    var id := io.blockInsert.value;
    var rows := OkRows(TxOutcomes(id, txs, io.failingTxInserts));
    SkippedPositionHasNoRow(id, txs, io.failingTxInserts, i);
    assert ExtractBlock(json, tagger, validInstant).value.transactions == txs;
    var r := ProcessBlock(store, metrics, tagger, json, validInstant, io, auditPath);
    var n := |store.transactions|;
    assert r.store.transactions[n..] == rows;
    forall k | n <= k < |r.store.transactions|
      ensures r.store.transactions[k].positionIndex != i
    {
      assert r.store.transactions[k] == rows[k - n];
    }
  }

  /** A transaction without a hash leaves no row, so fewer rows than
      transactions are written. */
  lemma SkippedPositionHasNoRow(id: int, txs: seq<TxJson>, failing: set<nat>, i: nat)
    requires i < |txs| && txs[i].hash.None?
    ensures var rows := OkRows(TxOutcomes(id, txs, failing));
            |rows| < |txs| && forall k :: 0 <= k < |rows| ==> rows[k].positionIndex != i
  {
    var rows := OkRows(TxOutcomes(id, txs, failing));
    TransactionRowsOfBlock(id, txs, failing);
    assert !HasRowAt(rows, i);
    RowsMissPosition(rows, 0, |txs|, i);
  }

  /** Strictly increasing positions inside `[lo, n)` number at most
      `n - lo`. */
  lemma {:induction false} IncreasingPositionsBound(rows: seq<TransactionRow>, lo: int, n: int)
    requires forall k :: 0 <= k < |rows| ==> lo <= rows[k].positionIndex < n
    requires forall k, l :: 0 <= k < l < |rows| ==> rows[k].positionIndex < rows[l].positionIndex
    ensures |rows| <= n - lo || |rows| == 0
  {
    if |rows| > 0 {
      var p := rows[0].positionIndex;
      IncreasingPositionsBound(rows[1..], p + 1, n);
    }
  }

  /** Strictly increasing positions inside `[lo, n)` that avoid one
      position number fewer than `n - lo`. */
  lemma {:induction false} RowsMissPosition(rows: seq<TransactionRow>, lo: int, n: int, missing: int)
    requires lo <= missing < n
    requires forall k :: 0 <= k < |rows| ==> lo <= rows[k].positionIndex < n && rows[k].positionIndex != missing
    requires forall k, l :: 0 <= k < l < |rows| ==> rows[k].positionIndex < rows[l].positionIndex
    ensures |rows| < n - lo
  {
    if |rows| > 0 {
      var p := rows[0].positionIndex;
      if p > missing {
        IncreasingPositionsBound(rows, p, n);
      } else {
        RowsMissPosition(rows[1..], p + 1, n, missing);
      }
    }
  }
}

=== FILE: catch_up.dfy ===
/** The ingestion loop of the command-line entry point: choose a starting
    cursor, then on every poll walk the block numbers above the cursor up
    to the chain height, one at a time. The cursor moves to a block only
    when that block was processed; a block that fails is logged and the
    walk goes on with the next number.

    The RPC node and the block processor are inputs: the height seen by a
    poll (`None` when the request fails) and, for each block number, what
    happened when it was fetched and processed. */
module CatchUp {
  import opened Wrappers
  import opened Text
  import opened Models

  /** What happened to one block number during a walk. */
  datatype Attempt =
    | Processed      // fetched, and processing succeeded
    | ProcessFailed  // fetched, and processing returned an error
    | NotFound       // the node had no such block
    | FetchFailed    // the request itself failed

  /** The block numbers `lo..=hi`, in increasing order. */
  function Range(lo: nat, hi: nat): (r: seq<nat>)
    ensures |r| == if lo <= hi then hi - lo + 1 else 0
    ensures forall i :: 0 <= i < |r| ==> r[i] == lo + i
    decreases hi + 1 - lo
  {
    if lo > hi then [] else [lo] + Range(lo + 1, hi)
  }

  predicate StrictlyIncreasing(s: seq<nat>) {
    forall i, j :: 0 <= i < j < |s| ==> s[i] < s[j]
  }

  /** The numbers tried by a walk, the ones processed, and the cursor it
      leaves. */
  datatype Pass = Pass(cursor: nat, attempted: seq<nat>, ingested: seq<nat>)

  /** The `for` loop over `next..=height`. */
  function Sweep(cursor: nat, next: nat, height: nat, outcome: nat -> Attempt): (r: Pass)
    ensures r.attempted == Range(next, height)
    ensures forall b :: b in r.ingested <==> next <= b <= height && outcome(b).Processed?
    ensures StrictlyIncreasing(r.ingested)
    ensures r.cursor == if |r.ingested| > 0 then r.ingested[|r.ingested| - 1] else cursor
    decreases height + 1 - next
  {
    if next > height then Pass(cursor, [], [])
    else
      var here := outcome(next).Processed?;
      var rest := Sweep(if here then next else cursor, next + 1, height, outcome);
      var ingested := (if here then [next] else []) + rest.ingested;
      assert StrictlyIncreasing(ingested) by {
        forall i, j | 0 <= i < j < |ingested| ensures ingested[i] < ingested[j] {
          if here && i == 0 {
            assert ingested[j] in rest.ingested;
          }
        }
      }
      Pass(rest.cursor, [next] + rest.attempted, ingested)
  }

  /** One iteration of the outer loop: when the height is known and above
      the cursor, walk `cursor + 1..=height`; otherwise do nothing. */
  function Poll(cursor: nat, height: Option<nat>, outcome: nat -> Attempt): (r: Pass)
    ensures height.None? || height.value <= cursor ==> r == Pass(cursor, [], [])
    ensures height.Some? && height.value > cursor ==>
              r.attempted == Range(cursor + 1, height.value) &&
              forall b :: b in r.ingested <==> cursor < b <= height.value && outcome(b).Processed?
    ensures forall b :: b in r.attempted ==> cursor < b
    ensures StrictlyIncreasing(r.ingested)
    ensures forall b :: b in r.ingested ==> cursor < b <= r.cursor
    ensures cursor <= r.cursor
    ensures r.cursor == cursor || (height.Some? && r.cursor <= height.value && outcome(r.cursor).Processed?)
  {
    if height.None? || height.value <= cursor then Pass(cursor, [], [])
    else
      var r := Sweep(cursor, cursor + 1, height.value, outcome);
      assert forall b :: b in r.ingested ==> b <= r.cursor by {
        forall b | b in r.ingested ensures b <= r.cursor {
          var i :| 0 <= i < |r.ingested| && r.ingested[i] == b;
        }
      }
      assert |r.ingested| > 0 ==> r.ingested[|r.ingested| - 1] in r.ingested;
      r
  }

  /** What one poll sees: the height (or a failed height request) and the
      result for each block number. */
  datatype Observation = Observation(height: Option<nat>, outcome: nat -> Attempt)

  datatype RunResult = RunResult(cursor: nat, attempted: seq<nat>, ingested: seq<nat>)

  /** Several iterations of the outer loop in a row. */
  function Run(cursor: nat, polls: seq<Observation>): (r: RunResult)
    ensures cursor <= r.cursor
    ensures forall b :: b in r.attempted ==> cursor < b
    ensures forall b :: b in r.ingested ==> cursor < b <= r.cursor
    ensures StrictlyIncreasing(r.ingested)
    decreases |polls|
  {
    if |polls| == 0 then RunResult(cursor, [], [])
    else
      var p := Poll(cursor, polls[0].height, polls[0].outcome);
      var rest := Run(p.cursor, polls[1..]);
      var ingested := p.ingested + rest.ingested;
      assert StrictlyIncreasing(ingested) by {
        forall i, j | 0 <= i < j < |ingested| ensures ingested[i] < ingested[j] {
          if i < |p.ingested| && j >= |p.ingested| {
            assert ingested[i] in p.ingested;
            assert ingested[j] in rest.ingested;
          }
        }
      }
      RunResult(rest.cursor, p.attempted + rest.attempted, ingested)
  }

  /** No block number is ingested twice, however many polls follow each
      other. */
  lemma NoBlockIngestedTwice(cursor: nat, polls: seq<Observation>, i: nat, j: nat)
    requires i < j < |Run(cursor, polls).ingested|
    ensures Run(cursor, polls).ingested[i] != Run(cursor, polls).ingested[j]
  {
  }

  /** A block that failed while a later block of the same walk was
      processed is never tried again: every later poll starts above it. */
  lemma {:induction false} FailedBlockBehindCursorIsAbandoned(
    cursor: nat, height: nat, outcome: nat -> Attempt, failed: nat, later: nat, polls: seq<Observation>)
    requires cursor < failed < later <= height
    requires !outcome(failed).Processed? && outcome(later).Processed?
    ensures failed in Poll(cursor, Some(height), outcome).attempted
    ensures failed !in Run(Poll(cursor, Some(height), outcome).cursor, polls).attempted
  {
    var p := Poll(cursor, Some(height), outcome);
    assert p.attempted[failed - (cursor + 1)] == failed;
    assert later in p.ingested;
    assert failed < p.cursor;
  }

  /** A walk in which nothing was processed leaves the cursor where it
      was, so the next poll with the same height tries the same numbers
      again. */
  lemma FailedWalkIsRepeated(cursor: nat, height: nat, first: nat -> Attempt, second: nat -> Attempt)
    requires cursor < height
    requires forall b :: cursor < b <= height ==> !first(b).Processed?
    ensures Poll(cursor, Some(height), first).cursor == cursor
    ensures Poll(Poll(cursor, Some(height), first).cursor, Some(height), second).attempted ==
            Poll(cursor, Some(height), first).attempted
  {
  }

  /** A chain at height 103 seen from cursor 100, with block 101 failing:
      all three blocks are tried, 102 and 103 are ingested, and the cursor
      ends at 103, leaving 101 behind. */
  lemma FailedBlockInTheMiddleExample(outcome: nat -> Attempt)
    requires outcome(101) == ProcessFailed
    requires outcome(102) == Processed && outcome(103) == Processed
    ensures Poll(100, Some(103), outcome) == Pass(103, [101, 102, 103], [102, 103])
  {
    assert Range(104, 103) == [];
    assert Range(101, 103) == [101, 102, 103];
  }

  // ---------------------------------------------------------------------
  // The starting cursor

  /** The largest stored block number, or `None` for an empty table. */
  function MaxBlockNumber(blocks: seq<BlockRow>): (r: Option<int>)
    ensures r.None? <==> |blocks| == 0
    ensures r.Some? ==>
              (exists i :: 0 <= i < |blocks| && blocks[i].blockNumber == r.value) &&
              forall i :: 0 <= i < |blocks| ==> blocks[i].blockNumber <= r.value
  {
    if |blocks| == 0 then None
    else
      match MaxBlockNumber(blocks[1..])
      case None => Some(blocks[0].blockNumber)
      case Some(m) =>
        assert forall i :: 1 <= i < |blocks| ==> blocks[i] == blocks[1..][i - 1];
        if blocks[0].blockNumber >= m then Some(blocks[0].blockNumber)
        else
          var k :| 0 <= k < |blocks[1..]| && blocks[1..][k].blockNumber == m;
          assert blocks[k + 1].blockNumber == m;
          Some(m)
  }

  /** Block numbers are held in a signed 64-bit column. */
  predicate SignedColumn(blocks: seq<BlockRow>) {
    forall i :: 0 <= i < |blocks| ==> -(I64_LIMIT as int) <= blocks[i].blockNumber < I64_LIMIT
  }

  /** `get_last_processed_block`: the largest stored number cast to `u64`,
      or 0 when no block is stored. */
  function LastProcessedBlock(blocks: seq<BlockRow>): (r: nat)
    requires SignedColumn(blocks)
    ensures |blocks| == 0 ==> r == 0
    ensures r < U64_LIMIT
  {
    match MaxBlockNumber(blocks)
    case None => 0
    case Some(m) => I64AsU64(m)
  }

  /** When every stored block was written from a `u64` number below 2^63,
      the cursor read back is the largest of those numbers. */
  lemma LastProcessedIsLargestNumber(numbers: seq<nat>, blocks: seq<BlockRow>)
    requires |numbers| == |blocks| > 0
    requires forall i :: 0 <= i < |numbers| ==> numbers[i] < I64_LIMIT && blocks[i].blockNumber == U64AsI64(numbers[i])
    ensures SignedColumn(blocks)
    ensures LastProcessedBlock(blocks) in numbers
    ensures forall i :: 0 <= i < |numbers| ==> numbers[i] <= LastProcessedBlock(blocks)
  {
    var m := MaxBlockNumber(blocks).value;
    var k :| 0 <= k < |blocks| && blocks[k].blockNumber == m;
    assert numbers[k] == m;
  }

  datatype StartError = HeightUnavailable | StoreUnavailable

  /** The cursor before the first poll: the current height when starting
      from the latest block, otherwise the last stored block; a failure of
      the one request made is fatal. */
  function InitialCursor(startFromLatest: bool, height: Option<nat>, stored: Option<seq<BlockRow>>): (r: Result<nat, StartError>)
    requires stored.Some? ==> SignedColumn(stored.value)
    ensures startFromLatest ==>
              (r.Success? <==> height.Some?) && (r.Success? ==> r.value == height.value) &&
              (r.Failure? ==> r.error == HeightUnavailable)
    ensures !startFromLatest ==>
              (r.Success? <==> stored.Some?) &&
              (r.Failure? ==> r.error == StoreUnavailable) &&
              (r.Success? && |stored.value| == 0 ==> r.value == 0)
    ensures !startFromLatest && stored.Some? ==> r == Success(LastProcessedBlock(stored.value))
  {
    if startFromLatest then
      (if height.Some? then Success(height.value) else Failure(HeightUnavailable))
    else if stored.Some? then Success(LastProcessedBlock(stored.value))
    else Failure(StoreUnavailable)
  }
}

=== FILE: detectors.dfy ===
/** The MEV heuristic engine of the `mev-heuristics` crate: four
    independent predicates over a transaction, the transactions of its
    block and its index, combined into an ordered list of reason codes. */
module Detectors {
  import opened Wrappers
  import opened Text
  import opened Sorting
  import opened Models

  /** A 20-byte account address. Its checksummed string form is a function
      of the bytes that tells different addresses apart, so comparing the
      strings is comparing the bytes. */
  type Address = seq<byte>

  /** The fields of an RPC transaction the detectors read. The priority fee
      is wider than 64 bits in the RPC type and is cut to `u64` by the
      detector. */
  datatype Transaction = Transaction(from: Address, maxPriorityFeePerGas: Option<nat>, input: seq<byte>)

  /** The swap selectors the detector searches for: swapExactETHForTokens,
      exactInputSingle and multicall. */
  const DetectorSelectors: seq<string> := ["7ff36ab5", "414bf389", "5c11d795"]

  // ---------------------------------------------------------------------
  // HighPriorityFee

  /** The priority fees of the block, in block order, skipping the
      transactions that carry none. */
  function BlockFees(block: seq<Transaction>): (r: seq<nat>)
    ensures |r| <= |block|
  {
    if |block| == 0 then []
    else
      (match block[0].maxPriorityFeePerGas
       case Some(f) => [LowU64(f)]
       case None => [])
      + BlockFees(block[1..])
  }

  /** Twice the median of an ascending list, so that the exact decimal
      median (a mean ending in .5 for an even count) stays an integer: the
      sum of the two middle elements for an even count, twice the middle
      element for an odd count. */
  function TwiceMedian(sorted: seq<nat>): nat
    requires |sorted| > 0
  {
    if |sorted| % 2 == 0 then sorted[|sorted| / 2 - 1] + sorted[|sorted| / 2]
    else 2 * sorted[|sorted| / 2]
  }

  /** The fee is above three times the block's median fee; the comparison
      `fee > 3 * median` is taken as `2 * fee > 3 * (2 * median)`. */
  predicate IsHighPriorityFeeOutlier(tx: Transaction, block: seq<Transaction>) {
    match tx.maxPriorityFeePerGas
    case None => false
    case Some(f) =>
      var fees := BlockFees(block);
      |fees| > 0 && 2 * LowU64(f) > 3 * TwiceMedian(Sort(fees))
  }

  // ---------------------------------------------------------------------
  // RepeatedSender

  function SenderCount(block: seq<Transaction>, sender: Address): nat {
    if |block| == 0 then 0
    else (if block[0].from == sender then 1 else 0) + SenderCount(block[1..], sender)
  }

  /** The sender sends at least three transactions of the block; the index
      is not consulted. */
  predicate IsRepeatedSender(tx: Transaction, block: seq<Transaction>, txIndex: nat) {
    SenderCount(block, tx.from) >= 3
  }

  // ---------------------------------------------------------------------
  // AtomicMultiswap

  /** Two or more selectors occur somewhere in the hex form of the
      calldata; empty calldata never qualifies. */
  predicate IsAtomicMultiswap(tx: Transaction) {
    |tx.input| > 0 && MatchCount(HexEncode(tx.input), DetectorSelectors) >= 2
  }

  // ---------------------------------------------------------------------
  // SandwichPattern

  predicate SentBy(txs: seq<Transaction>, sender: Address) {
    exists k :: 0 <= k < |txs| && txs[k].from == sender
  }

  /** The sender has a transaction before the index and one after it. An
      index outside the block has no transaction after it, so it is never
      the middle of a sandwich (the source slices past the end there
      instead; see `DetectMevPatternsAsWritten`). */
  predicate IsSandwichPattern(tx: Transaction, block: seq<Transaction>, txIndex: nat) {
    txIndex < |block| && SentBy(block[..txIndex], tx.from) && SentBy(block[txIndex + 1..], tx.from)
  }

  // ---------------------------------------------------------------------
  // Combination

  /** The codes of the detectors that fired, in evaluation order. */
  function CodesFor(high: bool, repeated: bool, multiswap: bool, sandwich: bool): (r: seq<MevReasonCode>)
    ensures InEvaluationOrder(r)
    ensures |r| <= 4
    ensures HighPriorityFee in r <==> high
    ensures RepeatedSender in r <==> repeated
    ensures AtomicMultiswap in r <==> multiswap
    ensures SandwichPattern in r <==> sandwich
  {
    var flags := [high, repeated, multiswap, sandwich];
    var r := CodesFrom(flags, 0);
    assert HighPriorityFee.Rank() == 0 && RepeatedSender.Rank() == 1;
    assert AtomicMultiswap.Rank() == 2 && SandwichPattern.Rank() == 3;
    r
  }

  /** The codes of rank `k` and above whose flag is set, in rank order. */
  function CodesFrom(flags: seq<bool>, k: nat): (r: seq<MevReasonCode>)
    requires |flags| == 4 && k <= 4
    ensures InEvaluationOrder(r)
    ensures |r| <= 4 - k
    ensures forall i :: 0 <= i < |r| ==> k <= r[i].Rank()
    ensures forall c: MevReasonCode :: c in r <==> k <= c.Rank() && flags[c.Rank()]
    decreases 4 - k
  {
    if k == 4 then []
    else
      var rest := CodesFrom(flags, k + 1);
      var code := AllReasonCodes[k];
      assert code.Rank() == k;
      if flags[k] then
        assert forall c: MevReasonCode :: c.Rank() == k ==> c == code;
        [code] + rest
      else rest
  }

  /** Runs the four detectors in their fixed order and lists the codes of
      those that fire. */
  function DetectMevPatterns(tx: Transaction, block: seq<Transaction>, txIndex: nat): (r: seq<MevReasonCode>)
    ensures InEvaluationOrder(r)
    ensures |r| <= 4
    ensures HighPriorityFee in r <==> IsHighPriorityFeeOutlier(tx, block)
    ensures RepeatedSender in r <==> IsRepeatedSender(tx, block, txIndex)
    ensures AtomicMultiswap in r <==> IsAtomicMultiswap(tx)
    ensures SandwichPattern in r <==> IsSandwichPattern(tx, block, txIndex)
  {
    CodesFor(
      IsHighPriorityFeeOutlier(tx, block),
      IsRepeatedSender(tx, block, txIndex),
      IsAtomicMultiswap(tx),
      IsSandwichPattern(tx, block, txIndex))
  }

  /** The slice `block[txIndex + 1..]` of the sandwich detector panics
      when its start lies past the end of the block. */
  datatype Panic = SliceStartOutOfRange

  /** The detectors exactly as written: an index at or past the end of the
      block makes the sandwich detector's slice panic; any other index
      gives the codes of `DetectMevPatterns`. */
  function DetectMevPatternsAsWritten(tx: Transaction, block: seq<Transaction>, txIndex: nat): (r: Result<seq<MevReasonCode>, Panic>)
    ensures r.Failure? <==> txIndex >= |block|
    ensures r.Success? ==> r.value == DetectMevPatterns(tx, block, txIndex)
  {
    if txIndex + 1 > |block| then Failure(SliceStartOutOfRange)
    else Success(DetectMevPatterns(tx, block, txIndex))
  }

  // ---------------------------------------------------------------------
  // Properties of the fee detector

  lemma {:induction false} BlockFeesAppend(a: seq<Transaction>, b: seq<Transaction>)
    ensures BlockFees(a + b) == BlockFees(a) + BlockFees(b)
    decreases |a|
  {
    if |a| == 0 {
      assert a + b == b;
    } else {
      assert (a + b)[1..] == a[1..] + b;
      BlockFeesAppend(a[1..], b);
    }
  }

  /** The verdict does not depend on how the fees were sorted: any
      ascending arrangement of the block's fees gives the same median. */
  lemma HighFeeUsesAnyAscendingOrder(tx: Transaction, block: seq<Transaction>, sorted: seq<nat>)
    requires Sorted(sorted) && multiset(sorted) == multiset(BlockFees(block))
    ensures IsHighPriorityFeeOutlier(tx, block) <==>
            tx.maxPriorityFeePerGas.Some? && |sorted| > 0 &&
            2 * LowU64(tx.maxPriorityFeePerGas.value) > 3 * TwiceMedian(sorted)
  {
    SortedUnique(Sort(BlockFees(block)), sorted);
  }

  /** A transaction without a priority fee is left out of the median rather
      than counted as a zero fee: adding one anywhere in the block changes
      no verdict. */
  lemma FeelessTransactionsIgnored(tx: Transaction, block: seq<Transaction>, k: nat, other: Transaction)
    requires k <= |block| && other.maxPriorityFeePerGas.None?
    ensures IsHighPriorityFeeOutlier(tx, block[..k] + [other] + block[k..]) == IsHighPriorityFeeOutlier(tx, block)
  {
    var widened := block[..k] + [other] + block[k..];
    assert BlockFees(widened) == BlockFees(block) by {
      BlockFeesAppend(block[..k] + [other], block[k..]);
      BlockFeesAppend(block[..k], [other]);
      BlockFeesAppend(block[..k], block[k..]);
      assert BlockFees([other]) == [];
      assert block[..k] + block[k..] == block;
    }
  }

  /** Without a fee of its own, or in a block where no transaction has one,
      a transaction is never a fee outlier. */
  lemma NoFeeNoOutlier(tx: Transaction, block: seq<Transaction>)
    requires tx.maxPriorityFeePerGas.None? ||
             forall i :: 0 <= i < |block| ==> block[i].maxPriorityFeePerGas.None?
    ensures !IsHighPriorityFeeOutlier(tx, block)
  {
    if tx.maxPriorityFeePerGas.Some? {
      BlockFeesNone(block);
    }
  }

  lemma {:induction false} BlockFeesNone(block: seq<Transaction>)
    requires forall i :: 0 <= i < |block| ==> block[i].maxPriorityFeePerGas.None?
    ensures BlockFees(block) == []
  {
    if |block| > 0 {
      BlockFeesNone(block[1..]);
    }
  }

  /** The threshold is strict and has no guard for a zero median: a fee of
      exactly three medians is not flagged, and when the median is zero
      every positive fee is. */
  lemma FeeThresholdBoundaries(tx: Transaction, block: seq<Transaction>)
    requires tx.maxPriorityFeePerGas.Some? && |BlockFees(block)| > 0
    ensures 2 * LowU64(tx.maxPriorityFeePerGas.value) == 3 * TwiceMedian(Sort(BlockFees(block)))
            ==> !IsHighPriorityFeeOutlier(tx, block)
    ensures TwiceMedian(Sort(BlockFees(block))) == 0 && LowU64(tx.maxPriorityFeePerGas.value) > 0
            ==> IsHighPriorityFeeOutlier(tx, block)
  {
  }

  lemma {:induction false} BlockFeesAllPresent(block: seq<Transaction>)
    requires forall i :: 0 <= i < |block| ==>
               block[i].maxPriorityFeePerGas.Some? && block[i].maxPriorityFeePerGas.value < U64_LIMIT
    ensures BlockFees(block) == seq(|block|, i requires 0 <= i < |block| => block[i].maxPriorityFeePerGas.value)
  {
    if |block| > 0 {
      BlockFeesAllPresent(block[1..]);
    }
  }

  /** The all-zero address. */
  const ZeroAddress: Address := seq(20, _ => 0 as byte)

  /** Ten fees from 1.0 to 1.9 gwei have median 1.45 gwei, so a 10 gwei fee
      exceeds three medians (4.35 gwei). */
  lemma TenFeesOutlierExample()
    ensures
      var block := seq(10, i requires 0 <= i < 10 =>
        Transaction(ZeroAddress, Some(1_000_000_000 + i * 100_000_000), []));
      var outlier := Transaction(ZeroAddress, Some(10_000_000_000), []);
      IsHighPriorityFeeOutlier(outlier, block)
  {
    TenFeesAscending();
  }

  /** The ten fees of the example are already ascending; the middle two
      are 1.4 and 1.5 gwei. */
  lemma TenFeesAscending()
    ensures
      var block := seq(10, i requires 0 <= i < 10 =>
        Transaction(ZeroAddress, Some(1_000_000_000 + i * 100_000_000), []));
      var fees := BlockFees(block);
      |fees| == 10 && Sort(fees) == fees && TwiceMedian(fees) == 2_900_000_000
  {
    var block := seq(10, i requires 0 <= i < 10 =>
      Transaction(ZeroAddress, Some(1_000_000_000 + i * 100_000_000), []));
    BlockFeesAllPresent(block);
    var fees := BlockFees(block);
    assert forall i :: 0 <= i < 10 ==> fees[i] == 1_000_000_000 + i * 100_000_000;
    SortOfSorted(fees);
  }

  /** The ten-fee outlier example, called with the values of the
      detector's unit test: index 10 in a block of ten transactions, which
      holds no transaction at that index. Such a call panics. */
  lemma OutlierTestPanics()
    ensures
      var block := seq(10, i requires 0 <= i < 10 =>
        Transaction(ZeroAddress, Some(1_000_000_000 + i * 100_000_000), []));
      var outlier := Transaction(ZeroAddress, Some(10_000_000_000), []);
      DetectMevPatternsAsWritten(outlier, block, 10) == Failure(SliceStartOutOfRange)
  {
  }

  /** With the out-of-range index read as "no transaction after it", the
      same call returns codes that include `HighPriorityFee`, as the test
      expects. */
  lemma OutlierTestFlagsHighFee()
    ensures
      var block := seq(10, i requires 0 <= i < 10 =>
        Transaction(ZeroAddress, Some(1_000_000_000 + i * 100_000_000), []));
      var outlier := Transaction(ZeroAddress, Some(10_000_000_000), []);
      HighPriorityFee in DetectMevPatterns(outlier, block, 10)
  {
    TenFeesOutlierExample();
  }

  // ---------------------------------------------------------------------
  // Properties of the sender detectors

  function Senders(block: seq<Transaction>): (r: seq<Address>)
    ensures |r| == |block|
    ensures forall i :: 0 <= i < |block| ==> r[i] == block[i].from
  {
    seq(|block|, i requires 0 <= i < |block| => block[i].from)
  }

  /** The count is the multiplicity of the sender among the block's
      senders. */
  lemma {:induction false} SenderCountIsMultiplicity(block: seq<Transaction>, sender: Address)
    ensures SenderCount(block, sender) == multiset(Senders(block))[sender]
  {
    if |block| > 0 {
      SenderCountIsMultiplicity(block[1..], sender);
      assert Senders(block) == [block[0].from] + Senders(block[1..]);
    }
  }

  /** Three equal fees are never more than three times their median. */
  lemma ThreeEqualFeesNoOutlier(tx: Transaction)
    requires tx.maxPriorityFeePerGas.Some?
    ensures !IsHighPriorityFeeOutlier(tx, [tx, tx, tx])
  {
    var f := LowU64(tx.maxPriorityFeePerGas.value);
    var fees := [f, f, f];
    ThreeEqualFees(tx);
    assert Sort(fees) == fees by {
      SortOfSorted(fees);
    }
    assert TwiceMedian(fees) == 2 * f;
  }

  lemma ThreeEqualFees(tx: Transaction)
    requires tx.maxPriorityFeePerGas.Some?
    ensures var f := LowU64(tx.maxPriorityFeePerGas.value);
            BlockFees([tx, tx, tx]) == [f, f, f]
  {
    var block := [tx, tx, tx];
    var f := LowU64(tx.maxPriorityFeePerGas.value);
    assert BlockFees(block[2..]) == [f];
    assert BlockFees(block[1..]) == [f] + BlockFees(block[2..]);
  }

  lemma ThreeFromOneSender(tx: Transaction)
    ensures IsRepeatedSender(tx, [tx, tx, tx], 0)
  {
    var block := [tx, tx, tx];
    assert SenderCount(block[2..], tx.from) == 1;
    assert SenderCount(block[1..], tx.from) == 2;
  }

  /** Three transactions from one sender make the first of them a repeated
      sender and nothing else. */
  lemma ThreeFromOneSenderExample(sender: Address, fee: nat)
    ensures
      var tx := Transaction(sender, Some(fee), []);
      DetectMevPatterns(tx, [tx, tx, tx], 0) == [RepeatedSender]
  {
    var tx := Transaction(sender, Some(fee), []);
    ThreeEqualFeesNoOutlier(tx);
    ThreeFromOneSender(tx);
    assert !IsSandwichPattern(tx, [tx, tx, tx], 0) by {
      assert [tx, tx, tx][..0] == [];
    }
    assert !IsAtomicMultiswap(tx);
  }

  /** The multiswap verdict: two different selectors both occur. */
  lemma MultiswapIffTwoSelectors(tx: Transaction)
    ensures IsAtomicMultiswap(tx) <==>
            |tx.input| > 0 &&
            exists i, j :: 0 <= i < j < |DetectorSelectors| &&
              Contains(HexEncode(tx.input), DetectorSelectors[i]) &&
              Contains(HexEncode(tx.input), DetectorSelectors[j])
  {
    TwoMatches(HexEncode(tx.input), DetectorSelectors);
  }

  /** The sandwich verdict in terms of block positions: the same sender at
      some position before the index and at some position after it. */
  lemma SandwichIffSurrounded(tx: Transaction, block: seq<Transaction>, txIndex: nat)
    ensures IsSandwichPattern(tx, block, txIndex) <==>
            (exists j :: 0 <= j < txIndex && j < |block| && block[j].from == tx.from) &&
            (exists k :: txIndex < k < |block| && block[k].from == tx.from)
  {
    if txIndex < |block| {
      var after := block[txIndex + 1..];
      if exists k :: txIndex < k < |block| && block[k].from == tx.from {
        var k :| txIndex < k < |block| && block[k].from == tx.from;
        assert after[k - txIndex - 1] == block[k];
      }
      if SentBy(after, tx.from) {
        var k :| 0 <= k < |after| && after[k].from == tx.from;
        assert block[txIndex + 1 + k] == after[k];
      }
    }
  }

  /** Neither the first nor the last transaction of a block is ever the
      middle of a sandwich. */
  lemma SandwichNeverAtEnds(tx: Transaction, block: seq<Transaction>, txIndex: nat)
    requires txIndex < |block|
    requires txIndex == 0 || txIndex == |block| - 1
    ensures !IsSandwichPattern(tx, block, txIndex)
  {
  }
}

=== FILE: inline_heuristics.dfy ===
/** The per-transaction step of block ingestion: a transaction is read
    from the block's JSON, classified by a second, inlined copy of the MEV
    heuristics, and turned into a `transactions` row. The inlined copy
    differs from the detector engine: it works on raw JSON strings, takes a
    floor median with a positive-median guard in wrapping `u64`
    arithmetic, searches five selectors, and uses its own reason tags. */
module InlineHeuristics {
  import opened Wrappers
  import opened Text
  import opened Sorting
  import opened Models

  /** A transaction object of the block JSON; each field is `None` when it
      is missing or is not a JSON string. */
  datatype TxJson = TxJson(
    hash: Option<string>,
    from: Option<string>,
    maxPriorityFeePerGas: Option<string>,
    input: Option<string>)

  /** The reasons the inlined heuristics push, in push order. */
  datatype InlineReason = FeeOutlier | SenderSequence | Multiswap | Sandwich {

    function Tag(): (r: string)
      ensures |r| > 0
    {
      match this
      case FeeOutlier => "high_priority_fee_outlier"
      case SenderSequence => "repeated_sender_sequence"
      case Multiswap => "atomic_multiswap"
      case Sandwich => "sandwich_pattern"
    }

    function Rank(): nat {
      match this
      case FeeOutlier => 0
      case SenderSequence => 1
      case Multiswap => 2
      case Sandwich => 3
    }
  }

  predicate InPushOrder(rs: seq<InlineReason>) {
    forall i, j :: 0 <= i < j < |rs| ==> rs[i].Rank() < rs[j].Rank()
  }

  /** The five selectors searched for in the raw input string. */
  const InlineSelectors: seq<string> := ["022c0d9f", "472b43f3", "5c11d795", "7ff36ab5", "414bf389"]

  // ---------------------------------------------------------------------
  // Priority fees

  /** The fee as the median computation reads it: present, a JSON string,
      and a valid `u64` quantity. */
  function ParsedFee(tx: TxJson): Option<nat> {
    match tx.maxPriorityFeePerGas
    case Some(s) => ParseHexU64(s)
    case None => None
  }

  /** The `max_priority_fee` column: the parsed quantity in decimal, or
      `"0"` when absent or unparsable. */
  function FeeColumn(tx: TxJson): string {
    match tx.maxPriorityFeePerGas
    case Some(s) => DecimalString(ParseHexU64(s).GetOr(0))
    case None => "0"
  }

  /** The transaction's own fee, read back from the decimal column. */
  function FeeValue(tx: TxJson): nat {
    ParseDecimalU64(FeeColumn(tx)).GetOr(0)
  }

  /** Reading the decimal column back gives the parsed quantity, or 0. */
  lemma FeeValueIsParsedFee(tx: TxJson)
    ensures ParseDecimalU64(FeeColumn(tx)) == Some(ParsedFee(tx).GetOr(0))
    ensures FeeValue(tx) == ParsedFee(tx).GetOr(0)
    ensures CanonicalDecimal(FeeColumn(tx))
  {
    DecimalRoundTrip(ParsedFee(tx).GetOr(0));
    DecimalStringCanonical(ParsedFee(tx).GetOr(0));
  }

  /** The fees that parse, in block order. */
  function ParseableFees(txs: seq<TxJson>): (r: seq<nat>)
    ensures |r| <= |txs|
  {
    if |txs| == 0 then []
    else
      (match ParsedFee(txs[0])
       case Some(f) => [f]
       case None => [])
      + ParseableFees(txs[1..])
  }

  /** The median of an ascending list with the floor of the mean for an
      even count, the sum wrapping at 2^64 as unchecked `u64` addition
      does. */
  function FloorMedianU64(sorted: seq<nat>): nat
    requires |sorted| > 0
  {
    if |sorted| % 2 == 0 then LowU64(sorted[|sorted| / 2 - 1] + sorted[|sorted| / 2]) / 2
    else sorted[|sorted| / 2]
  }

  /** Own fee positive, some fee parses, the median is positive and the
      fee exceeds three medians (the product wrapping at 2^64). */
  predicate IsFeeOutlier(txs: seq<TxJson>, txIndex: nat)
    requires txIndex < |txs|
  {
    var v := FeeValue(txs[txIndex]);
    v > 0 &&
    var fees := ParseableFees(txs);
    |fees| > 0 &&
    var median := FloorMedianU64(Sort(fees));
    v > LowU64(median * 3) && median > 0
  }

  // ---------------------------------------------------------------------
  // Senders and calldata

  /** How many transactions carry exactly this raw `from` value; two
      missing values are equal, and the comparison is case-sensitive. */
  function RawSenderCount(txs: seq<TxJson>, from: Option<string>): nat {
    if |txs| == 0 then 0
    else (if txs[0].from == from then 1 else 0) + RawSenderCount(txs[1..], from)
  }

  predicate IsSenderSequence(txs: seq<TxJson>, txIndex: nat)
    requires txIndex < |txs|
  {
    RawSenderCount(txs, txs[txIndex].from) >= 3
  }

  /** Two of the five selectors occur in the raw input string, `0x` prefix
      and letter case included. */
  predicate IsInlineMultiswap(tx: TxJson) {
    tx.input.Some? && MatchCount(tx.input.value, InlineSelectors) >= 2
  }

  predicate RawSentBy(txs: seq<TxJson>, sender: string) {
    exists k :: 0 <= k < |txs| && txs[k].from == Some(sender)
  }

  /** A present sender that also sends before and after the index. */
  predicate IsInlineSandwich(txs: seq<TxJson>, txIndex: nat)
    requires txIndex < |txs|
  {
    match txs[txIndex].from
    case None => false
    case Some(sender) => RawSentBy(txs[..txIndex], sender) && RawSentBy(txs[txIndex + 1..], sender)
  }

  function ReasonsFor(fee: bool, sender: bool, multiswap: bool, sandwich: bool): (r: seq<InlineReason>)
    ensures InPushOrder(r)
    ensures FeeOutlier in r <==> fee
    ensures SenderSequence in r <==> sender
    ensures Multiswap in r <==> multiswap
    ensures Sandwich in r <==> sandwich
  {
    var r := ReasonsFrom([fee, sender, multiswap, sandwich], 0);
    assert FeeOutlier.Rank() == 0 && SenderSequence.Rank() == 1;
    assert Multiswap.Rank() == 2 && Sandwich.Rank() == 3;
    r
  }

  /** Every inlined reason, in push order. */
  const AllInlineReasons: seq<InlineReason> := [FeeOutlier, SenderSequence, Multiswap, Sandwich]

  /** The reasons of rank `k` and above whose flag is set, in push order. */
  function ReasonsFrom(flags: seq<bool>, k: nat): (r: seq<InlineReason>)
    requires |flags| == 4 && k <= 4
    ensures InPushOrder(r)
    ensures forall i :: 0 <= i < |r| ==> k <= r[i].Rank()
    ensures forall x: InlineReason :: x in r <==> k <= x.Rank() && flags[x.Rank()]
    decreases 4 - k
  {
    if k == 4 then []
    else
      var rest := ReasonsFrom(flags, k + 1);
      var reason := AllInlineReasons[k];
      assert reason.Rank() == k;
      if flags[k] then
        assert forall x: InlineReason :: x.Rank() == k ==> x == reason;
        [reason] + rest
      else rest
  }

  /** The reasons pushed for the transaction at `txIndex`, in push order. */
  function InlineReasons(txs: seq<TxJson>, txIndex: nat): (r: seq<InlineReason>)
    requires txIndex < |txs|
    ensures InPushOrder(r)
    ensures FeeOutlier in r <==> IsFeeOutlier(txs, txIndex)
    ensures SenderSequence in r <==> IsSenderSequence(txs, txIndex)
    ensures Multiswap in r <==> IsInlineMultiswap(txs[txIndex])
    ensures Sandwich in r <==> IsInlineSandwich(txs, txIndex)
  {
    ReasonsFor(
      IsFeeOutlier(txs, txIndex),
      IsSenderSequence(txs, txIndex),
      IsInlineMultiswap(txs[txIndex]),
      IsInlineSandwich(txs, txIndex))
  }

  // ---------------------------------------------------------------------
  // Reason serialisation: a JSON array of strings

  function Quote(s: string): string {
    "\"" + s + "\""
  }

  /** The items separated by commas. */
  function JoinItems(items: seq<string>): string {
    if |items| == 0 then ""
    else if |items| == 1 then items[0]
    else items[0] + "," + JoinItems(items[1..])
  }

  function QuotedTags(rs: seq<InlineReason>): (r: seq<string>)
    ensures |r| == |rs|
    ensures forall i :: 0 <= i < |rs| ==> r[i] == Quote(rs[i].Tag())
  {
    seq(|rs|, i requires 0 <= i < |rs| => Quote(rs[i].Tag()))
  }

  /** `serde_json::to_string` of the list of tags. The tags contain no
      character that JSON escapes. */
  function EncodeReasons(rs: seq<InlineReason>): string {
    "[" + JoinItems(QuotedTags(rs)) + "]"
  }

  /** Splits at every occurrence of `sep`; always at least one piece. */
  function SplitOn(s: string, sep: char): (r: seq<string>)
    ensures |r| >= 1
  {
    if |s| == 0 then [""]
    else
      var rest := SplitOn(s[1..], sep);
      if s[0] == sep then [""] + rest else [[s[0]] + rest[0]] + rest[1..]
  }

  function TagToReason(t: string): Option<InlineReason> {
    if t == FeeOutlier.Tag() then Some(FeeOutlier)
    else if t == SenderSequence.Tag() then Some(SenderSequence)
    else if t == Multiswap.Tag() then Some(Multiswap)
    else if t == Sandwich.Tag() then Some(Sandwich)
    else None
  }

  function DecodeItem(item: string): Option<InlineReason> {
    if |item| >= 2 && item[0] == '"' && item[|item| - 1] == '"' then TagToReason(item[1..|item| - 1])
    else None
  }

  function DecodeItems(items: seq<string>): Option<seq<InlineReason>> {
    if |items| == 0 then Some([])
    else
      match (DecodeItem(items[0]), DecodeItems(items[1..]))
      case (Some(r), Some(rest)) => Some([r] + rest)
      case _ => None
  }

  /** Reads a JSON array of known tags back into reasons. */
  function DecodeReasons(s: string): Option<seq<InlineReason>> {
    if |s| >= 2 && s[0] == '[' && s[|s| - 1] == ']' then
      var inner := s[1..|s| - 1];
      if |inner| == 0 then Some([]) else DecodeItems(SplitOn(inner, ','))
    else None
  }

  lemma {:induction false} SplitWithoutSeparator(p: string, sep: char)
    requires sep !in p
    ensures SplitOn(p, sep) == [p]
  {
    if |p| > 0 {
      assert sep !in p[1..] by {
        assert forall k :: 0 <= k < |p[1..]| ==> p[1..][k] == p[k + 1];
      }
      SplitWithoutSeparator(p[1..], sep);
      assert [p[0]] + p[1..] == p;
    }
  }

  lemma {:induction false} SplitAtFirstSeparator(p: string, sep: char, rest: string)
    requires sep !in p
    ensures SplitOn(p + [sep] + rest, sep) == [p] + SplitOn(rest, sep)
  {
    var s := p + [sep] + rest;
    if |p| == 0 {
      assert s[1..] == rest;
    } else {
      assert sep !in p[1..] by {
        assert forall k :: 0 <= k < |p[1..]| ==> p[1..][k] == p[k + 1];
      }
      assert s[1..] == p[1..] + [sep] + rest;
      SplitAtFirstSeparator(p[1..], sep, rest);
      assert [p[0]] + p[1..] == p;
    }
  }

  lemma {:induction false} SplitJoin(items: seq<string>)
    requires |items| >= 1
    requires forall i :: 0 <= i < |items| ==> ',' !in items[i]
    ensures SplitOn(JoinItems(items), ',') == items
  {
    if |items| == 1 {
      SplitWithoutSeparator(items[0], ',');
    } else {
      SplitJoin(items[1..]);
      assert items[0] + "," + JoinItems(items[1..]) == items[0] + [','] + JoinItems(items[1..]);
      SplitAtFirstSeparator(items[0], ',', JoinItems(items[1..]));
      assert [items[0]] + items[1..] == items;
    }
  }

  lemma TagDecodes(r: InlineReason)
    ensures ',' !in Quote(r.Tag())
    ensures DecodeItem(Quote(r.Tag())) == Some(r)
  {
    var q := Quote(r.Tag());
    assert q[1..|q| - 1] == r.Tag();
    TagToReasonInverts(r);
    TagHasNoComma(r);
    assert q == ['"'] + r.Tag() + ['"'];
  }

  lemma TagHasNoComma(r: InlineReason)
    ensures ',' !in r.Tag()
  {
    match r
    case FeeOutlier =>
    case SenderSequence =>
    case Multiswap =>
    case Sandwich =>
  }

  /** Each tag names its own reason: the tags differ in their first
      letter. */
  lemma TagToReasonInverts(r: InlineReason)
    ensures TagToReason(r.Tag()) == Some(r)
  {
    match r
    case FeeOutlier =>
    case SenderSequence =>
      assert SenderSequence.Tag()[0] != FeeOutlier.Tag()[0];
    case Multiswap =>
      assert Multiswap.Tag()[0] != FeeOutlier.Tag()[0];
      assert Multiswap.Tag()[0] != SenderSequence.Tag()[0];
    case Sandwich =>
      assert Sandwich.Tag()[0] != FeeOutlier.Tag()[0];
      assert Sandwich.Tag()[0] != SenderSequence.Tag()[0];
      assert Sandwich.Tag()[0] != Multiswap.Tag()[0];
  }

  lemma {:induction false} DecodeQuotedTags(rs: seq<InlineReason>)
    ensures DecodeItems(QuotedTags(rs)) == Some(rs)
  {
    if |rs| > 0 {
      TagDecodes(rs[0]);
      assert QuotedTags(rs)[1..] == QuotedTags(rs[1..]);
      DecodeQuotedTags(rs[1..]);
      assert [rs[0]] + rs[1..] == rs;
    }
  }

  /** The stored JSON array reads back as the pushed reasons, in order. */
  lemma ReasonsRoundTrip(rs: seq<InlineReason>)
    ensures DecodeReasons(EncodeReasons(rs)) == Some(rs)
  {
    var items := QuotedTags(rs);
    var s := EncodeReasons(rs);
    assert s[1..|s| - 1] == JoinItems(items);
    if |rs| > 0 {
      forall i | 0 <= i < |items|
        ensures ',' !in items[i]
      {
        TagDecodes(rs[i]);
      }
      assert |JoinItems(items)| > 0 by {
        assert |items[0]| >= 2;
      }
      SplitJoin(items);
      DecodeQuotedTags(rs);
    }
  }

  // ---------------------------------------------------------------------
  // The transaction row

  const SummaryChars: nat := 200

  /** The raw input string, cut to 200 characters plus `...` when longer;
      absent when the input is. Characters stand for the bytes of the
      string (the input is ASCII hex). */
  function InputSummary(input: Option<string>): (r: Option<string>)
    ensures r.None? <==> input.None?
    ensures r.Some? ==> |r.value| <= SummaryChars + 3
    ensures r.Some? && |input.value| <= SummaryChars ==> r.value == input.value
    ensures r.Some? && |input.value| > SummaryChars ==>
              |r.value| == SummaryChars + 3 &&
              r.value[..SummaryChars] == input.value[..SummaryChars] && r.value[SummaryChars..] == "..."
  {
    match input
    case None => None
    case Some(s) => if |s| > SummaryChars then Some(s[..SummaryChars] + "...") else Some(s)
  }

  datatype TxError = MissingTxHash | TxInsertFailed

  /** Builds the row for the transaction at `txIndex`: a missing hash is an
      error before anything else, a failing insert is an error after the
      row is built. */
  function ProcessTransactionJson(blockId: int, txs: seq<TxJson>, txIndex: nat, insertFails: bool)
    : (r: Result<TransactionRow, TxError>)
    requires txIndex < |txs|
    ensures txs[txIndex].hash.None? ==> r == Failure(MissingTxHash)
    ensures txs[txIndex].hash.Some? && insertFails ==> r == Failure(TxInsertFailed)
    ensures r.Success? ==> txs[txIndex].hash.Some? && !insertFails
    ensures r.Success? ==>
              && r.value.blockId == blockId
              && r.value.txHash == txs[txIndex].hash.value
              && r.value.positionIndex == txIndex
              && r.value.senderAddress == txs[txIndex].from.GetOr("unknown")
              && ParseDecimalU64(r.value.maxPriorityFee) == Some(ParsedFee(txs[txIndex]).GetOr(0))
              && CanonicalDecimal(r.value.maxPriorityFee)
              && (r.value.isMevCandidate <==> |InlineReasons(txs, txIndex)| > 0)
              && (r.value.mevReasonCodes.Some? <==> r.value.isMevCandidate)
              && (r.value.mevReasonCodes.Some? ==>
                    DecodeReasons(r.value.mevReasonCodes.value) == Some(InlineReasons(txs, txIndex)))
              && r.value.calldataSummary == InputSummary(txs[txIndex].input)
              && r.value.logSummary.None?
  {
    var tx := txs[txIndex];
    match tx.hash
    case None => Failure(MissingTxHash)
    case Some(hash) =>
      var reasons := InlineReasons(txs, txIndex);
      var isMev := |reasons| > 0;
      var row := TransactionRow(
        blockId, hash, txIndex, tx.from.GetOr("unknown"), FeeColumn(tx),
        InputSummary(tx.input), None, isMev,
        if isMev then Some(EncodeReasons(reasons)) else None);
      FeeValueIsParsedFee(tx);
      ReasonsRoundTrip(reasons);
      if insertFails then Failure(TxInsertFailed) else Success(row)
  }

  // ---------------------------------------------------------------------
  // Properties of the inlined fee rule

  /** The floor median in unbounded arithmetic. */
  function FloorMedian(sorted: seq<nat>): nat
    requires |sorted| > 0
  {
    if |sorted| % 2 == 0 then (sorted[|sorted| / 2 - 1] + sorted[|sorted| / 2]) / 2
    else sorted[|sorted| / 2]
  }

  /** Bound below which no sum of two fees nor three times a median
      reaches 2^64. */
  const NoWrapFeeBound: nat := 0x4000_0000_0000_0000

  /** While every parsed fee is below 2^62, nothing wraps, and the rule is
      exactly: own fee positive, a positive floor median, and a fee above
      three medians. */
  lemma FeeOutlierWithoutWrap(txs: seq<TxJson>, txIndex: nat)
    requires txIndex < |txs|
    requires forall k :: 0 <= k < |ParseableFees(txs)| ==> ParseableFees(txs)[k] < NoWrapFeeBound
    ensures IsFeeOutlier(txs, txIndex) <==>
              var v := ParsedFee(txs[txIndex]).GetOr(0);
              var fees := ParseableFees(txs);
              v > 0 && |fees| > 0 && FloorMedian(Sort(fees)) > 0 && v > 3 * FloorMedian(Sort(fees))
  {
    FeeValueIsParsedFee(txs[txIndex]);
    var fees := ParseableFees(txs);
    if |fees| > 0 {
      var sorted := Sort(fees);
      SortKeepsBound(fees, NoWrapFeeBound);
      assert FloorMedianU64(sorted) == FloorMedian(sorted) by {
        assert sorted[|sorted| / 2] < NoWrapFeeBound;
        if |sorted| % 2 == 0 {
          assert sorted[|sorted| / 2 - 1] < NoWrapFeeBound;
        }
      }
      assert FloorMedian(sorted) < NoWrapFeeBound;
    }
  }

  /** Sorting keeps every element below a bound. */
  lemma SortKeepsBound(fees: seq<nat>, bound: nat)
    requires forall k :: 0 <= k < |fees| ==> fees[k] < bound
    ensures forall k :: 0 <= k < |Sort(fees)| ==> Sort(fees)[k] < bound
  {
    var sorted := Sort(fees);
    forall k | 0 <= k < |sorted|
      ensures sorted[k] < bound
    {
      assert sorted[k] in multiset(fees);
    }
  }

  /** Two transactions whose `from` fields are both missing count as the
      same sender: three of them make each a repeated sender. */
  lemma MissingSendersCountTogether(a: TxJson, b: TxJson, c: TxJson)
    requires a.from.None? && b.from.None? && c.from.None?
    ensures IsSenderSequence([a, b, c], 0) && IsSenderSequence([a, b, c], 2)
    ensures !IsInlineSandwich([a, b, c], 1)
  {
    assert RawSenderCount([a, b, c][2..], None) == 1;
    assert RawSenderCount([a, b, c][1..], None) == 2;
  }

  /** The raw `from` values of the transactions, in block order. */
  function RawSenders(txs: seq<TxJson>): seq<Option<string>> {
    seq(|txs|, i requires 0 <= i < |txs| => txs[i].from)
  }

  /** The count is the multiplicity of the raw `from` value among the
      block's raw senders. */
  lemma {:induction false} RawSenderCountIsMultiplicity(txs: seq<TxJson>, from: Option<string>)
    ensures RawSenderCount(txs, from) == multiset(RawSenders(txs))[from]
  {
    if |txs| > 0 {
      RawSenderCountIsMultiplicity(txs[1..], from);
      assert RawSenders(txs) == [txs[0].from] + RawSenders(txs[1..]);
    }
  }

  /** The inlined sandwich test holds iff the transaction has a sender and
      some earlier and some later transaction carry the same raw `from`. */
  lemma InlineSandwichIffSurrounded(txs: seq<TxJson>, txIndex: nat)
    requires txIndex < |txs|
    ensures IsInlineSandwich(txs, txIndex) <==>
            txs[txIndex].from.Some? &&
            (exists j :: 0 <= j < txIndex && txs[j].from == txs[txIndex].from) &&
            (exists k :: txIndex < k < |txs| && txs[k].from == txs[txIndex].from)
  {
    var from := txs[txIndex].from;
    if from.Some? {
      var before, after := txs[..txIndex], txs[txIndex + 1..];
      if exists j :: 0 <= j < txIndex && txs[j].from == from {
        var j :| 0 <= j < txIndex && txs[j].from == from;
        assert before[j] == txs[j];
      }
      if exists k :: txIndex < k < |txs| && txs[k].from == from {
        var k :| txIndex < k < |txs| && txs[k].from == from;
        assert after[k - txIndex - 1] == txs[k];
      }
      if RawSentBy(before, from.value) {
        var j :| 0 <= j < |before| && before[j].from == from;
        assert txs[j] == before[j];
      }
      if RawSentBy(after, from.value) {
        var k :| 0 <= k < |after| && after[k].from == from;
        assert txs[txIndex + 1 + k] == after[k];
      }
    }
  }
}

=== FILE: models.dfy ===
/** The record shapes the ingestion core writes (blocks, transactions,
    builders, validators), the closed set of MEV reason codes with their
    storage tags, and the integer casts used when a `u64` block number is
    stored in a signed 64-bit column. Store-assigned columns (row ids,
    `created_at`, `updated_at`) are not part of these shapes. */
module Models {
  import opened Wrappers
  import opened Text

  /** Why a transaction is an MEV candidate. */
  datatype MevReasonCode = HighPriorityFee | RepeatedSender | AtomicMultiswap | SandwichPattern {

    /** The fixed tag used for storage and audit output. */
    function AsStr(): (r: string)
      ensures |r| > 0
    {
      match this
      case HighPriorityFee => "high_priority_fee"
      case RepeatedSender => "repeated_sender"
      case AtomicMultiswap => "atomic_multiswap"
      case SandwichPattern => "sandwich_pattern"
    }

    /** Position in the fixed evaluation order of the detectors. */
    function Rank(): nat {
      match this
      case HighPriorityFee => 0
      case RepeatedSender => 1
      case AtomicMultiswap => 2
      case SandwichPattern => 3
    }
  }

  /** Every reason code, in evaluation order. */
  const AllReasonCodes: seq<MevReasonCode> :=
    [HighPriorityFee, RepeatedSender, AtomicMultiswap, SandwichPattern]

  /** The enumeration has exactly four members, listed once each in
      evaluation order. */
  lemma ReasonCodesEnumerated(c: MevReasonCode)
    ensures c in AllReasonCodes
    ensures AllReasonCodes[c.Rank()] == c
    ensures |AllReasonCodes| == 4
  {
  }

  /** Distinct reason codes have distinct tags. */
  lemma AsStrInjective(a: MevReasonCode, b: MevReasonCode)
    ensures a.AsStr() == b.AsStr() <==> a == b
  {
    if a != b {
      assert a.AsStr()[0] != b.AsStr()[0];
    }
  }

  /** Reason lists whose ranks strictly increase: ordered as the detectors
      run and free of duplicates. */
  predicate InEvaluationOrder(codes: seq<MevReasonCode>) {
    forall i, j :: 0 <= i < j < |codes| ==> codes[i].Rank() < codes[j].Rank()
  }

  /** A row of the `blocks` table. `blockNumber` holds the `i64` the
      number was cast to; `timestamp` holds the seconds of the instant
      that is stored in RFC 3339 form. */
  datatype BlockRow = BlockRow(
    blockNumber: int,
    blockHash: string,
    parentHash: string,
    timestamp: int,
    feeRecipient: string,
    baseFee: string,
    gasUsed: int,
    totalPriorityFees: string,
    isAfricaTagged: bool)

  /** A row of the `transactions` table. */
  datatype TransactionRow = TransactionRow(
    blockId: int,
    txHash: string,
    positionIndex: int,
    senderAddress: string,
    maxPriorityFee: string,
    calldataSummary: Option<string>,
    logSummary: Option<string>,
    isMevCandidate: bool,
    mevReasonCodes: Option<string>)

  /** A row of the `builders` table. */
  datatype BuilderRow = BuilderRow(feeRecipient: string, builderName: Option<string>, isKnown: bool)

  /** A row of the `validators` table, filled by the CSV import. */
  datatype ValidatorRow = ValidatorRow(
    feeRecipient: string,
    validatorPubkey: string,
    operatorName: Option<string>,
    country: Option<string>)

  // ---------------------------------------------------------------------
  // `as` casts between u64 and i64 (two's complement reinterpretation)

  /** `n as i64` for a `u64` value. */
  function U64AsI64(n: nat): (r: int)
    requires n < U64_LIMIT
    ensures -(I64_LIMIT as int) <= r < I64_LIMIT
    ensures n < I64_LIMIT ==> r == n
    ensures n >= I64_LIMIT ==> r == n - U64_LIMIT
    ensures (n - r) % U64_LIMIT == 0
  {
    if n < I64_LIMIT then n else n - U64_LIMIT
  }

  /** `i as u64` for an `i64` value. */
  function I64AsU64(i: int): (r: nat)
    requires -(I64_LIMIT as int) <= i < I64_LIMIT
    ensures r < U64_LIMIT
    ensures i >= 0 ==> r == i
    ensures i < 0 ==> r == i + U64_LIMIT
    ensures (r - i) % U64_LIMIT == 0
  {
    if i >= 0 then i else i + U64_LIMIT
  }

  /** Storing a block number in the signed column and reading it back
      as `u64` gives the original number. */
  lemma BlockNumberCastRoundTrip(n: nat)
    requires n < U64_LIMIT
    ensures I64AsU64(U64AsI64(n)) == n
  {
  }
}

=== FILE: sorting.dfy ===
/** Ascending sort of fee lists, as `Vec::sort` leaves them, and the fact
    that makes the median well defined: a list has exactly one ascending
    permutation, so which sorting algorithm produced it does not matter. */
module Sorting {

  predicate Sorted(s: seq<nat>) {
    forall i, j :: 0 <= i < j < |s| ==> s[i] <= s[j]
  }

  predicate AllAtLeast(s: seq<nat>, bound: nat) {
    forall i :: 0 <= i < |s| ==> bound <= s[i]
  }

  /** A lower bound of a list and of one more value bounds any list made
      of exactly those elements. */
  lemma AtLeastByMultiset(r: seq<nat>, t: seq<nat>, x: nat, bound: nat)
    requires AllAtLeast(t, bound) && bound <= x
    requires multiset(r) == multiset(t) + multiset{x}
    ensures AllAtLeast(r, bound)
  {
    forall k | 0 <= k < |r|
      ensures bound <= r[k]
    {
      assert r[k] in multiset(r);
      if r[k] != x {
        assert r[k] in multiset(t);
        var i :| 0 <= i < |t| && t[i] == r[k];
      }
    }
  }

  function Insert(x: nat, s: seq<nat>): (r: seq<nat>)
    requires Sorted(s)
    ensures Sorted(r)
    ensures multiset(r) == multiset(s) + multiset{x}
  {
    if |s| == 0 then [x]
    else if x <= s[0] then [x] + s
    else
      var rest := Insert(x, s[1..]);
      InsertStep(x, s, rest);
      [s[0]] + rest
  }

  lemma InsertStep(x: nat, s: seq<nat>, rest: seq<nat>)
    requires Sorted(s) && |s| > 0 && s[0] < x
    requires Sorted(rest) && multiset(rest) == multiset(s[1..]) + multiset{x}
    ensures Sorted([s[0]] + rest)
    ensures multiset([s[0]] + rest) == multiset(s) + multiset{x}
  {
    assert s == [s[0]] + s[1..];
    assert AllAtLeast(s[1..], s[0]);
    AtLeastByMultiset(rest, s[1..], x, s[0]);
  }

  /** The ascending permutation of `s`. */
  function Sort(s: seq<nat>): (r: seq<nat>)
    ensures Sorted(r)
    ensures multiset(r) == multiset(s)
  {
    if |s| == 0 then []
    else
      assert s == s[..|s| - 1] + [s[|s| - 1]];
      Insert(s[|s| - 1], Sort(s[..|s| - 1]))
  }

  /** The first element of a sorted list is its least element. */
  lemma SortedHeadIsLeast(s: seq<nat>, x: nat)
    requires Sorted(s) && x in multiset(s)
    ensures |s| > 0 && s[0] <= x
  {
    var k :| 0 <= k < |s| && s[k] == x;
  }

  /** Dropping the head removes one copy of it from the multiset. */
  lemma TailMultiset(s: seq<nat>)
    requires |s| > 0
    ensures multiset(s[1..]) == multiset(s) - multiset{s[0]}
  {
    assert s == [s[0]] + s[1..];
  }

  /** Two ascending lists with the same elements are the same list. */
  lemma {:induction false} SortedUnique(a: seq<nat>, b: seq<nat>)
    requires Sorted(a) && Sorted(b)
    requires multiset(a) == multiset(b)
    ensures a == b
    decreases |a|
  {
    if |a| == 0 {
      assert |b| == 0 by {
        assert |multiset(b)| == 0;
      }
    } else {
      HeadsAgree(a, b);
      SortedUnique(a[1..], b[1..]);
      assert a == [a[0]] + a[1..] && b == [b[0]] + b[1..];
    }
  }

  /** Two non-empty ascending lists with the same elements start with the
      same element, and their tails are again ascending with the same
      elements. */
  lemma HeadsAgree(a: seq<nat>, b: seq<nat>)
    requires Sorted(a) && Sorted(b) && |a| > 0
    requires multiset(a) == multiset(b)
    ensures |b| > 0 && a[0] == b[0]
    ensures Sorted(a[1..]) && Sorted(b[1..])
    ensures multiset(a[1..]) == multiset(b[1..])
  {
    assert |b| > 0 by {
      assert a[0] in multiset(b);
    }
    assert a[0] == b[0] by {
      assert a[0] in multiset(a) && b[0] in multiset(b);
      SortedHeadIsLeast(b, a[0]);
      SortedHeadIsLeast(a, b[0]);
    }
    TailMultiset(a);
    TailMultiset(b);
    SortedTail(a);
    SortedTail(b);
  }

  lemma SortedTail(s: seq<nat>)
    requires Sorted(s) && |s| > 0
    ensures Sorted(s[1..])
  {
    forall i, j | 0 <= i < j < |s| - 1
      ensures s[1..][i] <= s[1..][j]
    {
      assert s[1..][i] == s[i + 1] && s[1..][j] == s[j + 1];
    }
  }

  /** Sorting a list that is already ascending leaves it as it is. */
  lemma SortOfSorted(s: seq<nat>)
    requires Sorted(s)
    ensures Sort(s) == s
  {
    SortedUnique(Sort(s), s);
  }
}

=== FILE: text.dfy ===
/** Character-level helpers the ingestion code relies on: the unsigned and
    signed integer parsers of Rust's standard library (`from_str_radix`,
    `str::parse`), the matching renderers (`to_string`, `{:x}`), the
    lower-case hex encoding of byte strings (`hex::encode`), ASCII
    lower-casing, and substring search. */
module Text {
  import opened Wrappers

  newtype byte = x: int | 0 <= x < 256

  /** One past the largest `u64`. */
  const U64_LIMIT: nat := 0x1_0000_0000_0000_0000

  /** The low 64 bits of a value: `x as u64` for a wider integer, and the
      result of unchecked `u64` arithmetic in a release build. The result
      is the one value below 2^64 that differs from `x` by a multiple of
      2^64. */
  function LowU64(x: nat): (r: nat)
    ensures r < U64_LIMIT
    ensures (x - r) % U64_LIMIT == 0
    ensures x < U64_LIMIT ==> r == x
  {
    x % U64_LIMIT
  }
  /** One past the largest `i64`; the smallest `i64` is its negation. */
  const I64_LIMIT: nat := 0x8000_0000_0000_0000

  // ---------------------------------------------------------------------
  // Digits

  /** Rust's `char::to_digit(radix)`: ASCII digits, then letters of either
      case standing for 10, 11, ...; anything else, or a digit not below
      the radix, is not a digit. */
  function DigitValue(c: char, radix: nat): (r: Option<nat>)
    requires 2 <= radix <= 36
    ensures r.Some? ==> r.value < radix
  {
    var v: int :=
      if '0' <= c <= '9' then c as int - '0' as int
      else if 'a' <= c <= 'z' then c as int - 'a' as int + 10
      else if 'A' <= c <= 'Z' then c as int - 'A' as int + 10
      else radix;
    if v < radix then Some(v) else None
  }

  /** The lower-case character for a digit value below 16. */
  function DigitChar(d: nat): char
    requires d < 16
  {
    if d < 10 then ('0' as int + d) as char else ('a' as int + d - 10) as char
  }

  /** The value of a string made only of digits, most significant first;
      `None` as soon as one character is not a digit. The empty string
      has value 0 (callers rule it out first). */
  function DigitsValue(s: string, radix: nat): Option<nat>
    requires 2 <= radix <= 36
    decreases |s|
  {
    if |s| == 0 then Some(0)
    else
      match (DigitsValue(s[..|s| - 1], radix), DigitValue(s[|s| - 1], radix))
      case (Some(high), Some(d)) => Some(high * radix + d)
      case _ => None
  }

  // ---------------------------------------------------------------------
  // Parsing

  /** `from_str_radix` for an unsigned type whose values lie below `limit`:
      the empty string and a lone sign are errors, one leading `+` is
      skipped, every remaining character must be a digit, and a value that
      does not fit is an overflow error. A `-` is never accepted. */
  function FromStrRadix(s: string, radix: nat, limit: nat): (r: Option<nat>)
    requires 2 <= radix <= 36
    ensures r.Some? ==> r.value < limit
  {
    if |s| == 0 then None
    else if (s[0] == '+' || s[0] == '-') && |s| == 1 then None
    else
      var digits := if s[0] == '+' then s[1..] else s;
      match DigitsValue(digits, radix)
      case Some(v) => if v < limit then Some(v) else None
      case None => None
  }

  /** Every character of `s` is a digit of the radix. */
  predicate AllDigits(s: string, radix: nat)
    requires 2 <= radix <= 36
  {
    forall k :: 0 <= k < |s| ==> DigitValue(s[k], radix).Some?
  }

  /** The digit string has a value exactly when every character is a
      digit. */
  lemma {:induction false} DigitsValueDefinedIffDigits(s: string, radix: nat)
    requires 2 <= radix <= 36
    ensures DigitsValue(s, radix).Some? <==> AllDigits(s, radix)
    decreases |s|
  {
    if |s| > 0 {
      var init := s[..|s| - 1];
      DigitsValueDefinedIffDigits(init, radix);
      assert AllDigits(s, radix) <==> AllDigits(init, radix) && DigitValue(s[|s| - 1], radix).Some? by {
        if AllDigits(init, radix) && DigitValue(s[|s| - 1], radix).Some? {
          forall k | 0 <= k < |s|
            ensures DigitValue(s[k], radix).Some?
          {
            if k < |s| - 1 {
              assert s[k] == init[k];
            }
          }
        }
      }
    }
  }

  /** What the unsigned parser accepts: after at most one leading `+`, a
      non-empty run of digits whose value lies below the limit, and then
      that value. So the empty string, a lone sign, any `-`, any other
      non-digit, and a value at or past the limit are all rejected. */
  lemma FromStrRadixAccepts(s: string, radix: nat, limit: nat)
    requires 2 <= radix <= 36
    ensures var digits := if |s| > 0 && s[0] == '+' then s[1..] else s;
            && (FromStrRadix(s, radix, limit).Some? <==>
                  |digits| > 0 && AllDigits(digits, radix) && DigitsValue(digits, radix).GetOr(limit) < limit)
            && (FromStrRadix(s, radix, limit).Some? ==>
                  DigitsValue(digits, radix) == FromStrRadix(s, radix, limit))
    ensures |s| > 0 && s[0] == '-' ==> FromStrRadix(s, radix, limit).None?
  {
    var digits := if |s| > 0 && s[0] == '+' then s[1..] else s;
    DigitsValueDefinedIffDigits(digits, radix);
    if |s| > 0 && s[0] == '-' {
      assert !AllDigits(digits, radix) by {
        assert digits[0] == '-';
      }
    }
  }

  /** `i64::from_str_radix`: as the unsigned parser, except that a leading
      `-` negates the value, and the result must lie in the `i64` range. */
  function FromStrRadixI64(s: string, radix: nat): (r: Option<int>)
    requires 2 <= radix <= 36
    ensures r.Some? ==> -(I64_LIMIT as int) <= r.value < I64_LIMIT
  {
    if |s| == 0 then None
    else if (s[0] == '+' || s[0] == '-') && |s| == 1 then None
    else if s[0] == '-' then
      match DigitsValue(s[1..], radix)
      case Some(v) => if v <= I64_LIMIT then Some(0 - v as int) else None
      case None => None
    else
      var digits := if s[0] == '+' then s[1..] else s;
      match DigitsValue(digits, radix)
      case Some(v) => if v < I64_LIMIT then Some(v) else None
      case None => None
  }

  /** What the signed parser accepts: after at most one leading sign, a
      non-empty run of digits whose signed value lies in the `i64` range,
      and then that signed value. */
  lemma FromStrRadixI64Accepts(s: string, radix: nat)
    requires 2 <= radix <= 36
    ensures var negative := |s| > 0 && s[0] == '-';
            var digits := if |s| > 0 && (s[0] == '+' || s[0] == '-') then s[1..] else s;
            var magnitude := DigitsValue(digits, radix).GetOr(0);
            var value: int := if negative then 0 - magnitude else magnitude;
            && (FromStrRadixI64(s, radix).Some? <==>
                  |digits| > 0 && AllDigits(digits, radix) && -(I64_LIMIT as int) <= value < I64_LIMIT)
            && (FromStrRadixI64(s, radix).Some? ==> FromStrRadixI64(s, radix) == Some(value))
  {
    var digits := if |s| > 0 && (s[0] == '+' || s[0] == '-') then s[1..] else s;
    DigitsValueDefinedIffDigits(digits, radix);
  }

  /** `s.strip_prefix("0x").unwrap_or(s)`: only the lower-case prefix. */
  function StripHexPrefix(s: string): (r: string)
    ensures |s| >= 2 && s[..2] == "0x" ==> s == "0x" + r
    ensures !(|s| >= 2 && s[..2] == "0x") ==> r == s
  {
    if |s| >= 2 && s[..2] == "0x" then s[2..] else s
  }

  /** A JSON-RPC quantity read as `u64`: optional `0x`, then base 16. */
  function ParseHexU64(s: string): Option<nat> {
    FromStrRadix(StripHexPrefix(s), 16, U64_LIMIT)
  }

  /** A JSON-RPC quantity read as `i64`: optional `0x`, then base 16. */
  function ParseHexI64(s: string): (r: Option<int>)
    ensures r.Some? ==> -(I64_LIMIT as int) <= r.value < I64_LIMIT
  {
    FromStrRadixI64(StripHexPrefix(s), 16)
  }

  /** `str::parse::<u64>()`: base 10. */
  function ParseDecimalU64(s: string): Option<nat> {
    FromStrRadix(s, 10, U64_LIMIT)
  }

  // ---------------------------------------------------------------------
  // Rendering

  /** The digits of `n` in the given radix, most significant first, with no
      leading zeros and lower-case letters: `to_string()` for radix 10 and
      `format!("{:x}")` for radix 16. */
  function ToRadixString(n: nat, radix: nat): (r: string)
    requires 2 <= radix <= 16
    ensures |r| > 0
    decreases n
  {
    if n < radix then [DigitChar(n)]
    else ToRadixString(n / radix, radix) + [DigitChar(n % radix)]
  }

  function DecimalString(n: nat): string {
    ToRadixString(n, 10)
  }

  lemma DigitCharValue(d: nat, radix: nat)
    requires 2 <= radix <= 16 && d < radix
    ensures DigitValue(DigitChar(d), radix) == Some(d)
  {
  }

  /** A rendered number starts with a digit, never with a sign. */
  lemma {:induction false} RadixLeadingDigit(n: nat, radix: nat)
    requires 2 <= radix <= 16
    ensures DigitValue(ToRadixString(n, radix)[0], radix).Some?
    decreases n
  {
    if n < radix {
      DigitCharValue(n, radix);
    } else {
      RadixLeadingDigit(n / radix, radix);
    }
  }

  /** Appending one digit scales the value by the radix and adds it. */
  lemma DigitsValueSnoc(prefix: string, c: char, radix: nat)
    requires 2 <= radix <= 36
    ensures DigitsValue(prefix, radix).Some? && DigitValue(c, radix).Some? ==>
            DigitsValue(prefix + [c], radix) ==
            Some(DigitsValue(prefix, radix).value * radix + DigitValue(c, radix).value)
  {
    assert (prefix + [c])[..|prefix|] == prefix;
  }

  lemma DivMod(n: nat, radix: nat)
    requires radix >= 2
    ensures (n / radix) * radix + n % radix == n
    ensures n >= radix ==> n / radix < n
  {
  }

  /** Reading back a rendered number gives the number. */
  lemma {:induction false} RadixRoundTrip(n: nat, radix: nat)
    requires 2 <= radix <= 16
    ensures DigitsValue(ToRadixString(n, radix), radix) == Some(n)
    decreases n
  {
    if n < radix {
      DigitCharValue(n, radix);
      DigitsValueSnoc([], DigitChar(n), radix);
      assert [] + [DigitChar(n)] == [DigitChar(n)];
    } else {
      var q, d := n / radix, n % radix;
      var high := ToRadixString(q, radix);
      var s := high + [DigitChar(d)];
      assert ToRadixString(n, radix) == s;
      assert q < n by {
        DivMod(n, radix);
      }
      assert DigitsValue(s, radix) == Some(n) by {
        RadixRoundTrip(q, radix);
        DigitCharValue(d, radix);
        DigitsValueSnoc(high, DigitChar(d), radix);
        DivMod(n, radix);
      }
    }
  }

  /** `n.to_string().parse::<u64>()` gives back every `u64`. */
  lemma DecimalRoundTrip(n: nat)
    requires n < U64_LIMIT
    ensures ParseDecimalU64(DecimalString(n)) == Some(n)
  {
    RadixRoundTrip(n, 10);
    RadixLeadingDigit(n, 10);
  }

  // ---------------------------------------------------------------------
  // Canonical decimal strings

  /** The form `to_string()` gives a non-negative integer: decimal digits
      only, at least one, and no leading zero unless the number is 0. */
  predicate CanonicalDecimal(s: string) {
    |s| > 0 && AllDigits(s, 10) && (|s| > 1 ==> s[0] != '0')
  }

  /** `to_string()` is canonical, and starts with a non-zero digit for a
      positive number. */
  lemma {:induction false} DecimalStringCanonical(n: nat)
    ensures CanonicalDecimal(DecimalString(n))
    ensures n > 0 ==> DecimalString(n)[0] != '0'
    decreases n
  {
    if n >= 10 {
      var high := DecimalString(n / 10);
      DecimalStringCanonical(n / 10);
      DigitCharValue(n % 10, 10);
      var s := high + [DigitChar(n % 10)];
      assert DecimalString(n) == s;
      assert s[0] == high[0];
      forall k | 0 <= k < |s|
        ensures DigitValue(s[k], 10).Some?
      {
        if k < |high| {
          assert s[k] == high[k];
        }
      }
    } else {
      DigitCharValue(n, 10);
    }
  }

  /** A decimal digit is the character `DigitChar` gives for its value. */
  lemma DecimalDigitChar(c: char, d: nat)
    requires DigitValue(c, 10) == Some(d)
    ensures c == DigitChar(d)
  {
  }

  /** Digits that do not start with `0` have a positive value. */
  lemma {:induction false} LeadingDigitPositive(s: string)
    requires |s| > 0 && AllDigits(s, 10) && s[0] != '0'
    ensures DigitsValue(s, 10).Some? && DigitsValue(s, 10).value > 0
    decreases |s|
  {
    DigitsValueDefinedIffDigits(s, 10);
    if |s| > 1 {
      var init := s[..|s| - 1];
      assert init[0] == s[0];
      assert AllDigits(init, 10) by {
        forall k | 0 <= k < |init|
          ensures DigitValue(init[k], 10).Some?
        {
          assert init[k] == s[k];
        }
      }
      LeadingDigitPositive(init);
    }
  }

  /** A canonical decimal string is the only one for its value: it is the
      `to_string()` of that value. */
  lemma {:induction false} CanonicalDecimalUnique(s: string, n: nat)
    requires CanonicalDecimal(s) && DigitsValue(s, 10) == Some(n)
    ensures s == DecimalString(n)
    decreases |s|
  {
    var c := s[|s| - 1];
    var init := s[..|s| - 1];
    assert DigitValue(c, 10).Some?;
    var d := DigitValue(c, 10).value;
    DecimalDigitChar(c, d);
    assert s == init + [c];
    if |s| == 1 {
      assert init == [];
      assert n == d;
    } else {
      assert AllDigits(init, 10) by {
        forall k | 0 <= k < |init|
          ensures DigitValue(init[k], 10).Some?
        {
          assert init[k] == s[k];
        }
      }
      assert init[0] == s[0];
      LeadingDigitPositive(init);
      var high := DigitsValue(init, 10).value;
      assert n == high * 10 + d;
      assert n / 10 == high && n % 10 == d;
      CanonicalDecimalUnique(init, high);
      assert DecimalString(n) == DecimalString(high) + [DigitChar(d)];
    }
  }

  /** A quantity rendered as `format!("0x{:x}", n)` parses back to `n`. */
  lemma HexQuantityRoundTrip(n: nat)
    requires n < U64_LIMIT
    ensures ParseHexU64("0x" + ToRadixString(n, 16)) == Some(n)
  {
    var digits := ToRadixString(n, 16);
    var s := "0x" + digits;
    assert s[..2] == "0x";
    assert s[2..] == digits;
    RadixRoundTrip(n, 16);
    RadixLeadingDigit(n, 16);
  }

  /** A non-negative `i64` rendered as a `0x` hex quantity parses back to
      itself with the signed parser. */
  lemma HexQuantityI64RoundTrip(n: nat)
    requires n < I64_LIMIT
    ensures ParseHexI64("0x" + ToRadixString(n, 16)) == Some(n)
  {
    var digits := ToRadixString(n, 16);
    var s := "0x" + digits;
    assert s[..2] == "0x";
    assert s[2..] == digits;
    RadixRoundTrip(n, 16);
    RadixLeadingDigit(n, 16);
  }

  // ---------------------------------------------------------------------
  // Hex encoding of byte strings

  predicate IsLowerHexDigit(c: char) {
    '0' <= c <= '9' || 'a' <= c <= 'f'
  }

  function HexPair(b: byte): string {
    [DigitChar(b as nat / 16), DigitChar(b as nat % 16)]
  }

  /** `hex::encode`: two lower-case hex digits per byte, no prefix. */
  function HexEncode(bs: seq<byte>): (r: string)
    ensures |r| == 2 * |bs|
  {
    if |bs| == 0 then [] else HexPair(bs[0]) + HexEncode(bs[1..])
  }

  /** Every character of the encoding is a lower-case hex digit. */
  lemma {:induction false} HexEncodeLowerCase(bs: seq<byte>)
    ensures forall i :: 0 <= i < |HexEncode(bs)| ==> IsLowerHexDigit(HexEncode(bs)[i])
  {
    if |bs| > 0 {
      HexPairDigits(bs[0]);
      HexEncodeLowerCase(bs[1..]);
      var s := HexEncode(bs);
      forall i | 0 <= i < |s|
        ensures IsLowerHexDigit(s[i])
      {
        if i >= 2 {
          assert s[i] == HexEncode(bs[1..])[i - 2];
        }
      }
    }
  }

  /** Both characters of a pair are lower-case hex digits and read back as
      the high and low halves of the byte. */
  lemma HexPairDigits(b: byte)
    ensures IsLowerHexDigit(HexPair(b)[0]) && IsLowerHexDigit(HexPair(b)[1])
    ensures DigitValue(HexPair(b)[0], 16) == Some(b as nat / 16)
    ensures DigitValue(HexPair(b)[1], 16) == Some(b as nat % 16)
  {
    DigitCharValue(b as nat / 16, 16);
    DigitCharValue(b as nat % 16, 16);
  }

  /** The inverse of `HexEncode` on lower-case hex of even length. */
  function HexDecode(s: string): Option<seq<byte>>
    decreases |s|
  {
    if |s| == 0 then Some([])
    else if |s| == 1 then None
    else
      match (DigitValue(s[0], 16), DigitValue(s[1], 16), HexDecode(s[2..]))
      case (Some(hi), Some(lo), Some(rest)) => Some([(hi * 16 + lo) as byte] + rest)
      case _ => None
  }

  lemma {:induction false} HexRoundTrip(bs: seq<byte>)
    ensures HexDecode(HexEncode(bs)) == Some(bs)
  {
    if |bs| > 0 {
      HexRoundTrip(bs[1..]);
      HexDecodePair(bs[0], HexEncode(bs[1..]), bs[1..]);
      assert [bs[0]] + bs[1..] == bs;
    }
  }

  /** Decoding a pair in front of a decodable string adds its byte in
      front. */
  lemma HexDecodePair(b: byte, rest: string, tail: seq<byte>)
    requires HexDecode(rest) == Some(tail)
    ensures HexDecode(HexPair(b) + rest) == Some([b] + tail)
  {
    var c0, c1 := HexPair(b)[0], HexPair(b)[1];
    assert HexPair(b) + rest == [c0, c1] + rest by {
      assert HexPair(b) == [c0, c1];
    }
    HexPairDigits(b);
    HexDecodeDigits(c0, c1, rest, tail, b as nat / 16, b as nat % 16);
    ByteHalves(b);
  }

  /** Two digits in front of a decodable string decode to one byte in
      front. */
  lemma HexDecodeDigits(c0: char, c1: char, rest: string, tail: seq<byte>, hi: nat, lo: nat)
    requires DigitValue(c0, 16) == Some(hi) && DigitValue(c1, 16) == Some(lo)
    requires HexDecode(rest) == Some(tail)
    ensures HexDecode([c0, c1] + rest) == Some([(hi * 16 + lo) as byte] + tail)
  {
    var s := [c0, c1] + rest;
    assert s[0] == c0 && s[1] == c1 && s[2..] == rest;
  }

  lemma ByteHalves(b: byte)
    ensures (b as nat / 16 * 16 + b as nat % 16) as byte == b
  {
  }

  /** Encoding distributes over concatenation. */
  lemma {:induction false} HexEncodeAppend(a: seq<byte>, b: seq<byte>)
    ensures HexEncode(a + b) == HexEncode(a) + HexEncode(b)
    decreases |a|
  {
    if |a| > 0 {
      assert (a + b)[1..] == a[1..] + b;
      HexEncodeAppend(a[1..], b);
    } else {
      assert a + b == b;
    }
  }

  /** The first `2k` hex digits encode exactly the first `k` bytes. */
  lemma HexEncodePrefix(bs: seq<byte>, k: nat)
    requires k <= |bs|
    ensures HexEncode(bs)[..2 * k] == HexEncode(bs[..k])
  {
    assert bs == bs[..k] + bs[k..];
    HexEncodeAppend(bs[..k], bs[k..]);
  }

  // ---------------------------------------------------------------------
  // ASCII case

  function LowerChar(c: char): char {
    if 'A' <= c <= 'Z' then (c as int - 'A' as int + 'a' as int) as char else c
  }

  /** `to_lowercase`, restricted to ASCII letters. */
  function Lower(s: string): (r: string)
    ensures |r| == |s|
    ensures forall i :: 0 <= i < |s| ==> r[i] == LowerChar(s[i])
  {
    if |s| == 0 then [] else [LowerChar(s[0])] + Lower(s[1..])
  }

  /** Lower-casing twice is lower-casing once. */
  lemma LowerIdempotent(s: string)
    ensures Lower(Lower(s)) == Lower(s)
  {
    var once := Lower(s);
    var twice := Lower(once);
    assert forall i :: 0 <= i < |s| ==> twice[i] == once[i];
  }

  // ---------------------------------------------------------------------
  // Substrings

  predicate OccursAt(hay: string, needle: string, i: int) {
    0 <= i && i + |needle| <= |hay| && hay[i..i + |needle|] == needle
  }

  /** `str::contains` for a string pattern. */
  predicate Contains(hay: string, needle: string) {
    exists i :: 0 <= i <= |hay| - |needle| && OccursAt(hay, needle, i)
  }

  /** A match inside `hay` is still a match once text is put in front. */
  lemma ContainsAfterPrefix(prefix: string, hay: string, needle: string)
    requires Contains(hay, needle)
    ensures Contains(prefix + hay, needle)
  {
    var i :| 0 <= i <= |hay| - |needle| && OccursAt(hay, needle, i);
    assert (prefix + hay)[|prefix| + i..|prefix| + i + |needle|] == hay[i..i + |needle|];
    assert OccursAt(prefix + hay, needle, |prefix| + i);
  }

  /** How many of `patterns` occur in `hay`: the
      `patterns.iter().filter(|p| hay.contains(p)).count()` idiom. */
  function MatchCount(hay: string, patterns: seq<string>): (r: nat)
    ensures r <= |patterns|
  {
    if |patterns| == 0 then 0
    else (if Contains(hay, patterns[0]) then 1 else 0) + MatchCount(hay, patterns[1..])
  }

  /** At least one pattern is counted iff some pattern occurs. */
  lemma {:induction false} SomeMatch(hay: string, patterns: seq<string>)
    ensures MatchCount(hay, patterns) >= 1 <==>
            exists i :: 0 <= i < |patterns| && Contains(hay, patterns[i])
  {
    if |patterns| > 0 {
      SomeMatch(hay, patterns[1..]);
      if exists i :: 1 <= i < |patterns| && Contains(hay, patterns[i]) {
        var i :| 1 <= i < |patterns| && Contains(hay, patterns[i]);
        assert patterns[1..][i - 1] == patterns[i];
      }
    }
  }

  /** At least two patterns are counted iff two different entries of the
      list both occur. */
  lemma {:induction false} TwoMatches(hay: string, patterns: seq<string>)
    ensures MatchCount(hay, patterns) >= 2 <==>
            exists i, j :: 0 <= i < j < |patterns| && Contains(hay, patterns[i]) && Contains(hay, patterns[j])
  {
    if |patterns| > 0 {
      var tail := patterns[1..];
      TwoMatches(hay, tail);
      SomeMatch(hay, tail);
      if MatchCount(hay, patterns) >= 2 {
        if Contains(hay, patterns[0]) {
          var j :| 0 <= j < |tail| && Contains(hay, tail[j]);
          assert Contains(hay, patterns[0]) && Contains(hay, patterns[j + 1]);
        } else {
          var i, j :| 0 <= i < j < |tail| && Contains(hay, tail[i]) && Contains(hay, tail[j]);
          assert Contains(hay, patterns[i + 1]) && Contains(hay, patterns[j + 1]);
        }
      }
      if exists i, j :: 0 <= i < j < |patterns| && Contains(hay, patterns[i]) && Contains(hay, patterns[j]) {
        var i, j :| 0 <= i < j < |patterns| && Contains(hay, patterns[i]) && Contains(hay, patterns[j]);
        assert Contains(hay, tail[j - 1]);
        if i > 0 {
          assert Contains(hay, tail[i - 1]);
        }
      }
    }
  }
}

=== FILE: validator_tagger.dfy ===
/** The validator tagger: an in-memory set of lower-cased fee-recipient
    addresses of known (Africa-based) validators, loaded from the
    `validators` table, queried case-insensitively and refreshed on
    demand. The store query is an input: either the rows it returned or
    the failure it reported. */
module ValidatorTagger {
  import opened Wrappers
  import opened Text
  import opened Models

  datatype StoreError = StoreUnavailable

  datatype Tagger = Tagger(africaFeeRecipients: set<string>)

  /** The distinct lower-cased fee recipients of the rows. */
  function RecipientSet(rows: seq<ValidatorRow>): (r: set<string>)
    ensures forall a :: a in r <==> exists i :: 0 <= i < |rows| && Lower(rows[i].feeRecipient) == a
  {
    set i | 0 <= i < |rows| :: Lower(rows[i].feeRecipient)
  }

  /** `ValidatorTagger::new`: fails when the query fails, otherwise holds
      exactly the lower-cased recipients of the returned rows. */
  function Load(query: Result<seq<ValidatorRow>, StoreError>): (r: Result<Tagger, StoreError>)
    ensures r.Failure? <==> query.Failure?
    ensures r.Success? ==>
              forall a :: a in r.value.africaFeeRecipients <==>
                exists i :: 0 <= i < |query.value| && Lower(query.value[i].feeRecipient) == a
  {
    match query
    case Failure(e) => Failure(e)
    case Success(rows) => Success(Tagger(RecipientSet(rows)))
  }

  /** `is_africa_tagged`: the lower-cased address is in the set. */
  predicate IsAfricaTagged(t: Tagger, feeRecipient: string) {
    Lower(feeRecipient) in t.africaFeeRecipients
  }

  /** Membership ignores ASCII letter case. */
  lemma TaggingIgnoresCase(t: Tagger, a: string)
    ensures IsAfricaTagged(t, a) == IsAfricaTagged(t, Lower(a))
  {
    LowerIdempotent(a);
  }

  /** For a loaded tagger: an address is tagged iff some validator row
      names it, up to letter case. */
  lemma LoadedTaggerMembership(rows: seq<ValidatorRow>, a: string)
    ensures IsAfricaTagged(Load(Success(rows)).value, a) <==>
            exists i :: 0 <= i < |rows| && Lower(rows[i].feeRecipient) == Lower(a)
  {
  }

  datatype RefreshOutcome = RefreshOutcome(tagger: Tagger, status: Result<(), StoreError>)

  /** `refresh`: a failed fetch returns the error before the set is
      cleared; a successful one replaces the whole set. */
  function Refresh(t: Tagger, query: Result<seq<ValidatorRow>, StoreError>): (r: RefreshOutcome)
    ensures query.Failure? ==> r.tagger == t && r.status == Failure(query.error)
    ensures query.Success? ==> r.status.Success? && r.tagger == Load(query).value
  {
    match query
    case Failure(e) => RefreshOutcome(t, Failure(e))
    case Success(rows) => RefreshOutcome(Tagger(RecipientSet(rows)), Success(()))
  }

  /** After a successful refresh an earlier entry survives only if the new
      rows still name it; nothing of the old set is kept otherwise. */
  lemma RefreshForgetsOldEntries(t: Tagger, rows: seq<ValidatorRow>, a: string)
    requires a in t.africaFeeRecipients
    requires forall i :: 0 <= i < |rows| ==> Lower(rows[i].feeRecipient) != a
    ensures a !in Refresh(t, Success(rows)).tagger.africaFeeRecipients
  {
  }
}

=== FILE: variants.dfy ===
/** The block processor does not call the detector crate: it carries its
    own copy of the heuristics. The two copies differ, and this module
    states where: the median (exact against floored, with an extra
    positive-median guard), the selector list, how senders are compared,
    and the reason strings. */
module Variants {
  import opened Wrappers
  import opened Text
  import opened Sorting
  import opened Models
  import opened Detectors
  import opened InlineHeuristics

  // ---------------------------------------------------------------------
  // The fee rule, on an ascending list of fees

  /** The detector's rule: the fee exceeds three times the exact median. */
  predicate DetectorFeeRule(fee: nat, sorted: seq<nat>)
    requires |sorted| > 0
  {
    2 * fee > 3 * TwiceMedian(sorted)
  }

  /** The inlined rule without wrap-around: a positive fee above three
      times a positive floored median. */
  predicate InlineFeeRule(fee: nat, sorted: seq<nat>)
    requires |sorted| > 0
  {
    fee > 0 && FloorMedian(sorted) > 0 && fee > 3 * FloorMedian(sorted)
  }

  /** The detector flag is the detector rule on the sorted block fees. */
  lemma DetectorFlagIsRule(tx: Transaction, block: seq<Transaction>)
    ensures IsHighPriorityFeeOutlier(tx, block) <==>
              tx.maxPriorityFeePerGas.Some? && |BlockFees(block)| > 0 &&
              DetectorFeeRule(LowU64(tx.maxPriorityFeePerGas.value), Sort(BlockFees(block)))
  {
  }

  /** The inlined flag is the inlined rule on the sorted parseable fees,
      as long as no fee reaches 2^62. */
  lemma InlineFlagIsRule(txs: seq<TxJson>, txIndex: nat)
    requires txIndex < |txs|
    requires forall k :: 0 <= k < |ParseableFees(txs)| ==> ParseableFees(txs)[k] < NoWrapFeeBound
    ensures IsFeeOutlier(txs, txIndex) <==>
              |ParseableFees(txs)| > 0 &&
              InlineFeeRule(ParsedFee(txs[txIndex]).GetOr(0), Sort(ParseableFees(txs)))
  {
    FeeOutlierWithoutWrap(txs, txIndex);
  }

  /** Flooring only lowers the median, so whenever the floored median is
      positive the inlined rule flags every fee the detector flags. */
  lemma DetectorRuleImpliesInlineRule(fee: nat, sorted: seq<nat>)
    requires |sorted| > 0 && FloorMedian(sorted) > 0
    ensures DetectorFeeRule(fee, sorted) ==> InlineFeeRule(fee, sorted)
  {
    assert 2 * FloorMedian(sorted) <= TwiceMedian(sorted);
  }

  /** With an odd number of fees, or an even sum of the two middle fees,
      the median is a whole number; when it is also positive the two
      rules agree. */
  lemma RulesAgreeOnWholeMedian(fee: nat, sorted: seq<nat>)
    requires |sorted| > 0 && FloorMedian(sorted) > 0
    requires TwiceMedian(sorted) % 2 == 0
    ensures DetectorFeeRule(fee, sorted) <==> InlineFeeRule(fee, sorted)
  {
    assert TwiceMedian(sorted) == 2 * FloorMedian(sorted);
  }

  /** Fees 1, 1, 2, 4: the exact median is 1.5 and the floored one 1, so a
      fee of 4 is flagged inline (4 > 3) but not by the detector
      (4 <= 4.5). */
  lemma FlooredMedianFlagsMore()
    ensures InlineFeeRule(4, [1, 1, 2, 4])
    ensures !DetectorFeeRule(4, [1, 1, 2, 4])
  {
  }

  /** Fees 0, 0, 5: the median is 0. The detector flags the fee 5
      (5 > 0); the inlined copy does not, because it asks for a positive
      median. */
  lemma ZeroMedianFlaggedOnlyByDetector()
    ensures DetectorFeeRule(5, [0, 0, 5])
    ensures !InlineFeeRule(5, [0, 0, 5])
  {
  }

  // ---------------------------------------------------------------------
  // Selectors

  /** Each detector selector is also an inlined selector. */
  lemma SelectorsIncluded(i: nat)
    requires i < |DetectorSelectors|
    ensures DetectorSelectors[i] == InlineSelectors[SelectorIndex(i)]
  {
  }

  /** Where each detector selector sits in the inlined list. */
  function SelectorIndex(i: nat): (r: nat)
    requires i < |DetectorSelectors|
    ensures r < |InlineSelectors|
  {
    if i == 0 then 3 else if i == 1 then 4 else 2
  }

  /** A transaction whose JSON input is the `0x`-prefixed lower-case hex of
      its calldata, as nodes send it, and that the detector marks as a
      multiswap, is marked by the inlined copy too. */
  lemma DetectorMultiswapImpliesInline(tx: Transaction, json: TxJson)
    requires json.input == Some("0x" + HexEncode(tx.input))
    ensures IsAtomicMultiswap(tx) ==> IsInlineMultiswap(json)
  {
    if IsAtomicMultiswap(tx) {
      var hex := HexEncode(tx.input);
      var input := "0x" + hex;
      TwoMatches(hex, DetectorSelectors);
      var i, j :| 0 <= i < j < |DetectorSelectors| &&
                  Contains(hex, DetectorSelectors[i]) && Contains(hex, DetectorSelectors[j]);
      SelectorsIncluded(i);
      SelectorsIncluded(j);
      ContainsAfterPrefix("0x", hex, DetectorSelectors[i]);
      ContainsAfterPrefix("0x", hex, DetectorSelectors[j]);
      var a, b := SelectorIndex(i), SelectorIndex(j);
      assert a != b;
      var lo, hi := if a < b then a else b, if a < b then b else a;
      assert Contains(input, InlineSelectors[lo]) && Contains(input, InlineSelectors[hi]);
      TwoMatches(input, InlineSelectors);
    }
  }

  /** Upper-case hex in the JSON input hides the selectors from the
      inlined copy, which searches the raw string. */
  lemma UpperCaseInputHidesSelectors()
    ensures !Contains("0x7FF36AB5", "7ff36ab5")
  {
    assert !OccursAt("0x7FF36AB5", "7ff36ab5", 0) by {
      assert "0x7FF36AB5"[0] != "7ff36ab5"[0];
    }
    assert !OccursAt("0x7FF36AB5", "7ff36ab5", 1) by {
      assert "0x7FF36AB5"[1] != "7ff36ab5"[0];
    }
    assert !OccursAt("0x7FF36AB5", "7ff36ab5", 2) by {
      assert "0x7FF36AB5"[3] != "7ff36ab5"[1];
    }
  }

  // ---------------------------------------------------------------------
  // Senders and reason strings

  /** The inlined copy compares raw `from` strings, so the same account
      written in two letter cases counts as two senders. */
  lemma SenderCaseMatters()
    ensures var txs := [TxJson(None, Some("0xAb"), None, None),
                        TxJson(None, Some("0xab"), None, None),
                        TxJson(None, Some("0xab"), None, None)];
            !IsSenderSequence(txs, 0) && !IsInlineSandwich(txs, 1)
  {
    var txs := [TxJson(None, Some("0xAb"), None, None),
                TxJson(None, Some("0xab"), None, None),
                TxJson(None, Some("0xab"), None, None)];
    assert "0xAb" != "0xab" by {
      assert "0xAb"[2] != "0xab"[2];
    }
    assert RawSenderCount(txs[2..], Some("0xAb")) == 0;
    assert RawSenderCount(txs[1..], Some("0xAb")) == 0;
    assert !RawSentBy(txs[..1], "0xab");
  }

  /** The inlined copy stores two of the four reasons under other names
      than the detector's codes; the other two are spelled the same. */
  lemma ReasonStringsDiffer()
    ensures FeeOutlier.Tag() != HighPriorityFee.AsStr()
    ensures SenderSequence.Tag() != RepeatedSender.AsStr()
    ensures Multiswap.Tag() == AtomicMultiswap.AsStr()
    ensures Sandwich.Tag() == SandwichPattern.AsStr()
  {
    assert |FeeOutlier.Tag()| != |HighPriorityFee.AsStr()|;
    assert |SenderSequence.Tag()| != |RepeatedSender.AsStr()|;
  }
}

=== FILE: wrappers.dfy ===
/** Failure-carrying datatypes shared by every module of the model:
    Option<T> for values that may be absent (a missing JSON field, an empty
    calldata summary) and Result<T, E> for operations that can fail. */
module Wrappers {

  datatype Option<+T> = None | Some(value: T) {

    /** The wrapped value, or `default` when absent (Rust's `unwrap_or`). */
    function GetOr(default: T): T {
      match this
      case Some(v) => v
      case None => default
    }
  }

  datatype Result<+T, +E> = Success(value: T) | Failure(error: E) {

    /** The wrapped value, or `default` on failure (Rust's `unwrap_or`). */
    function GetOr(default: T): T {
      match this
      case Success(v) => v
      case Failure(_) => default
    }
  }
}
